=== FILE: README.md ===
# scaffoldr configuration wizard, modelled in Dafny

scaffoldr generates configuration files for command-line tools (borgmatic,
autorestic, …) by asking the questions listed in a per-tool YAML
*definition*. It then renders a Jinja2 template with the answers. This
project models the core of that wizard as pure functions over abstract
inputs and proves properties of them:

- **Two prompt engines.** `Prompter` is the current engine and
  `LegacyPrompter` the older one. Each is a left fold over the sections and
  prompts of a definition, building the answer map. The terminal is a finite
  sequence of accepted lines; running out of lines is end of input.
  `EngineComparison` states where the two engines agree and where they part
  ways.
- **Discovery and lookup over a directory tree.**
  - `Discovery` covers `discover_tools`.
  - `Paths` covers `get_resource_path`, `get_tool_definition_path` and the
    POSIX `os.path.join`/`dirname`/`os.walk` behaviour they rely on.
  - `GlobalConfig` covers the per-tool global defaults.
- **Two wizard flows.**
  - `Wizard` covers `run_config_flow` and `_save_config`.
  - `Backup` covers the legacy `_create_config_flow`.

  Each is a small state machine over an abstract set of files (path to
  contents) and the input lines. It ends in one named outcome.

Jinja2 rendering, `re.match`, `str()` of non-strings and the final template
rendering are uninterpreted functions, fields of `Interaction.Oracles`. A
rendering that raises is `None`. The YAML and TOML loaders, the clock and
the questions "is there a directory at this path" and "can this path be
opened for writing" are parameters of the
environment records `Wizard.Env` and `Backup.LegacyEnv`. Python values are
`Values.Value`, with Python's truthiness and `==` (where `True == 1`)
written out.

Modules, one per source file or concern:

| module | file | models |
|---|---|---|
| `Wrappers` | wrappers.dfy | `Option`, `Result` |
| `Values` | values.dfy | Python values, truthiness, `==`, `dict.get` |
| `Text` | text.dfy | `strip`, `split`, `join`, `"{{" in s`, ASCII `lower`, `sorted` |
| `Definition` | definition.dfy | the parsed definition document |
| `Interaction` | interaction.dfy | the oracles, `Prompt.ask` on one accepted line, raised errors |
| `Prompter` | prompter.dfy | `utils/prompter.py` |
| `LegacyPrompter` | prompt_utils.dfy | `utils/prompt_utils.py` |
| `EngineComparison` | engines.dfy | the two engines side by side |
| `Paths` | paths.dfy | `core/engine/paths.py` |
| `Discovery` | discovery.dfy | `core/discovery.py` |
| `GlobalConfig` | config.dfy | `utils/config.py` |
| `Wizard` | wizard.dfy | `core/engine/wizard.py` |
| `Backup` | backup.dfy | `core/backup.py` |

## Model

| member | source | states |
|---|---|---|
| Values.NullEqualsOnlyNull | utils/prompter.py:62 | an unanswered gate key (read as `None`) equals the gate's value exactly when that value is `None` |
| Interaction.AskText | core/engine/wizard.py:39 | asking with a string default always yields a string: the default on an empty line, the line otherwise |
| Text.StripIsSlice | utils/prompter.py:44 | `strip()` gives the slice of the input between a whitespace-only prefix and a whitespace-only suffix, and that slice has no whitespace at either end |
| Text.Strip | utils/prompter.py:44 | `strip()` leaves no whitespace at either end, adds no character, and leaves stripped text alone |
| Text.Split | utils/prompter.py:44 | `split(",")` gives at least one piece, no piece holds a comma, and the pieces joined by commas are the input |
| Text.SplitJoin | utils/prompter.py:44 | splitting undoes joining for comma-free pieces |
| Text.CommaList | utils/prompter.py:43-44 | every item of the list shaping is non-empty, stripped and comma-free; which items, in which order, is stated by `Text.CommaListAround` and `Text.CommaListOfPiece` |
| Text.SplitAround | utils/prompter.py:44 | splitting at a comma splits the text on each side independently: `(a + "," + b).split(",")` is `a.split(",") + b.split(",")` |
| Text.CommaListAround | utils/prompter.py:43-44 | the shaping of `a + "," + b` is the shaping of `a` followed by that of `b`, so every item comes from the input and keeps its place |
| Text.CommaListOfPiece | utils/prompter.py:43-44 | a comma-free answer shapes to its stripped self, or to `[]` when it is blank |
| Text.CommaListOfComma | utils/prompter.py:43-44 | a lone `","` shapes to `[]`, so it is a non-empty answer that a required list prompt accepts and turns into the empty list |
| Text.CommaListOfEmpty | utils/prompter.py:43-44 | an empty answer to a list prompt shapes to `[]` |
| Text.CommaListJoin | utils/prompter.py:43-44 | round trip: shaping the comma-join of clean items gives the items back |
| Text.CommaListExample | utils/prompter.py:43-44 | `"a, b ,, c"` shapes to `["a", "b", "c"]` |
| Text.ContainsMarker | utils/prompter.py:12 | the scan is true exactly when `"{{"` occurs in the string |
| Text.LowerIdempotent | utils/config.py:26 | lower-casing twice is lower-casing once |
| Text.NoNameLowersTo | utils/config.py:26 | a global-defaults table whose name holds an upper-case letter is never found for any tool name |
| Text.Sort | core/discovery.py:41 | `sorted` returns a permutation of its input in non-decreasing string order |
| Prompter.RenderVal | utils/prompter.py:10-17 | non-strings and strings without `"{{"` come back unchanged; a marked string is rendered against the context, or kept raw when rendering raises |
| Prompter.AskUntilValid | utils/prompter.py:31-41 | the accepted answer is the first line whose answer passes the required and regex checks, every earlier line failed, and running out of lines is end of input |
| Prompter.GetInput | utils/prompter.py:19-45 | a missing `key` or `prompt` raises; an accepted required answer is truthy; a truthy answer matches a set regex; a list prompt's string answer is its comma list; anything else is kept as it was |
| Prompter.GlobalDefaultWins | utils/prompter.py:27-28 | with a global default for the key, the prompt's own `default` has no effect on the answer |
| Prompter.DefinitionDefaultOtherwise | utils/prompter.py:28 | without a global default for the key, the global defaults have no effect on the answer |
| Prompter.EmptyLineTakesDefault | utils/prompter.py:28-32 | an empty first line that passes the checks answers with the rendered effective default after reading one line |
| Prompter.RequiredListCanBeEmpty | utils/prompter.py:34-44 | a required list prompt accepts any non-empty line whose comma list is empty and yields `[]`: the required check sees the raw answer, not the shaped list |
| Prompter.Step | utils/prompter.py:59-65 | a closed gate leaves the state alone; for an open gate a raised `_get_input` error ends the run, and an answer is stored under the prompt's key, replacing only that key, with exactly the lines `_get_input` read consumed |
| Prompter.RunPrompts | utils/prompter.py:59-65 | a run adds only keys the prompts declare, keeps earlier answers for other keys, and reads a prefix of the input |
| Prompter.RunAppend | utils/prompter.py:54-65 | the run is a left fold: earlier prompts are answered as if later ones did not exist, so no default or gate sees a later answer |
| Prompter.SectionsInDocumentOrder | utils/prompter.py:54-65 | walking the sections is walking all prompts in section-then-prompt order |
| Prompter.PromptForConfig | utils/prompter.py:47-67 | the answers use only keys the definition declares and the unread lines are a suffix of the input; which value each key gets is stated by `Prompter.AskedAnswerIsFinal` |
| Prompter.AskedAnswerIsFinal | utils/prompter.py:59-65 | with unique keys, a prompt whose gate is open at its turn has `_get_input`'s answer as its key's final value: no later prompt replaces it |
| Prompter.OnePromptAnswered | utils/prompter.py:47-67 | a definition of one ungated, non-list prompt without a regex, answered with a non-empty line, gives exactly that line under the prompt's key, whatever the global defaults, reads that one line and leaves the later lines for the rest of the run |
| Prompter.NameAnsweredExample | utils/prompter.py:47-67 | one required prompt `name` answered `db1` gives `{"name": "db1"}` and reads exactly that line |
| Prompter.SkippedPromptLeavesNoKey | utils/prompter.py:61-63 | with unique keys, a prompt whose gate is closed when its turn comes is absent from the final answers |
| Prompter.ClosedGateSkips | utils/prompter.py:61-63 | a prompt with a closed gate is passed over: the run continues as if it were absent |
| Prompter.UnansweredDependencySkips | utils/prompter.py:61-63 | a gate naming a key no earlier prompt declares, with a value other than `None`, skips its prompt |
| Prompter.EmptyGateNeverSkips | utils/prompter.py:61-62 | a truthy gate with neither `key` nor `value` compares `None == None` and never skips |
| LegacyPrompter.RenderDefault | utils/prompt_utils.py:73-79 | a default is rendered only when it is a string containing `"{{"`; a failed rendering keeps the raw string |
| LegacyPrompter.ShapeListOfJoin | utils/prompt_utils.py:88-95 | round trip: answering a list prompt with clean items separated by commas gives back exactly those items, `[]` for an empty line |
| LegacyPrompter.Step | utils/prompt_utils.py:56-105 | a prompt that is not asked changes nothing; one without `prompt` reads nothing and adds nothing; one without `key` adds nothing; an asked prompt whose line shapes without raising stores that shaped value under its key and reads one line; an asked prompt whose line makes the list shaping raise reads the line, stores nothing and adds the unexpected-error report; at most one line is read and only the prompt's key can change |
| LegacyPrompter.Run | utils/prompt_utils.py:55-105 | the loop adds only declared keys, keeps earlier answers for other keys, and reads a prefix of the input |
| LegacyPrompter.RunAppend | utils/prompt_utils.py:48-105 | the legacy loop is a left fold over the prompts |
| LegacyPrompter.NoticesIrrelevant | utils/prompt_utils.py:98-105 | the printed warnings never influence the answers or the lines read |
| LegacyPrompter.PromptWithoutTextIsPassedOver | utils/prompt_utils.py:81-101 | a prompt without a `prompt` entry is absorbed: the answers and unread lines are those of the run without it |
| LegacyPrompter.PromptWithoutKeyConsumesOneLine | utils/prompt_utils.py:88-101 | an asked prompt without a `key` reads one line, adds nothing, and the later prompts still run |
| LegacyPrompter.NotAskedLeavesNoKey | utils/prompt_utils.py:57-66 | with unique keys, a prompt not asked when its turn comes is absent from the final answers |
| LegacyPrompter.MalformedGateLeavesNoKey | utils/prompt_utils.py:57-63 | a gate without a truthy `key` and a truthy `value` always leaves its prompt's key out |
| LegacyPrompter.SectionsInDocumentOrder | utils/prompt_utils.py:48-55 | walking the sections is walking all prompts in document order |
| LegacyPrompter.PromptForConfig | utils/prompt_utils.py:31-107 | a falsy heading gives `{}` and reads nothing; otherwise only declared keys are answered and a prefix of the input is read; which value each key gets is stated by `LegacyPrompter.AskedAnswerIsFinal` |
| LegacyPrompter.AskedAnswerIsFinal | utils/prompt_utils.py:81-97 | with unique keys, a prompt asked at its turn whose line shapes without raising has that shaped value as its key's final value |
| LegacyPrompter.OnePromptAnswered | utils/prompt_utils.py:31-107 | a definition of one ungated, non-list prompt, answered with a non-empty line, gives exactly that line under the prompt's key, reads that one line and leaves the later lines unread |
| LegacyPrompter.NameAnsweredExample | utils/prompt_utils.py:31-107 | one required prompt `name` answered `db1` gives `{"name": "db1"}` and reads exactly that line |
| LegacyPrompter.LoadPromptsFromYaml | utils/prompt_utils.py:11-28 | a missing or unparsable definition file loads as `{}`, which is falsy; a file that parses gives its document, `None` for an empty one |
| EngineComparison.WellFormedGatesAgree | utils/prompt_utils.py:57-66 | on a gate with a truthy key and a truthy value both engines ask exactly when the stored answer equals the value |
| EngineComparison.MalformedGatesDiverge | utils/prompt_utils.py:59-63 | on a malformed gate the legacy engine always skips, while the current one still compares `config.get(key)` with `value` |
| EngineComparison.UnansweredKeyWithoutValue | utils/prompter.py:61-63 | a gate on an unanswered key without `value` is skipped by the legacy engine and asked by the current one |
| EngineComparison.DefaultRenderingAgrees | utils/prompt_utils.py:73-79 | both engines render exactly the same defaults, the same way |
| EngineComparison.StringListShapingAgrees | utils/prompt_utils.py:88-95 | for a string answer both engines shape a list prompt identically, `""` included |
| EngineComparison.NonStringListAnswerDiverges | utils/prompt_utils.py:88-95 | a truthy non-string answer to a list prompt is kept by the current engine and raises in the legacy one |
| EngineComparison.NonStringListDefaultSkipsKey | utils/prompt_utils.py:70-105 | an empty line on an asked list prompt whose default is a truthy non-string makes the legacy loop store nothing under the key (whatever was there stays), read the line and add the unexpected-error report |
| Paths.PathJoinKeepsParts | core/engine/paths.py:21 | a join ends with its second part; a relative second part follows the first part and at most one added `/` |
| Paths.GetResourcePath | core/engine/paths.py:4-21 | an absolute relative path is the result itself; otherwise the result is the bundle directory if frozen, else the project root, then one `/` unless that base is empty or ends in `/`, then the relative path |
| Paths.DirnameOfJoin | core/engine/wizard.py:47 | the directory of a name joined onto a directory is that directory |
| Paths.FirstContaining | core/engine/paths.py:38-42 | no result exactly when no walked directory lists the file; a result is the join of the first such directory with the name |
| Paths.GetToolDefinitionPath | core/engine/paths.py:23-42 | no result when the definitions root is missing or is a file; a result ends with the lower-cased `<tool>.yaml`; no result exactly when no walked directory lists it |
| Paths.FoundEndsWithName | core/engine/paths.py:39-40 | the path the walk search returns ends with the name searched for |
| Paths.LookupIgnoresCase | core/engine/paths.py:39-40 | tool names that differ only in ASCII case find the same definition |
| Discovery.ToolsIn | core/discovery.py:30-38 | a name is listed exactly when some entry of the category is a directory holding `<name>.yaml` |
| Discovery.CatalogueOf | core/discovery.py:25-41 | a category is present exactly when some directory of that name has a tool; its list is the sorted tools of the last such directory |
| Discovery.DiscoverTools | core/discovery.py:8-43 | a missing root gives `{}`, a file as root raises, a directory gives a catalogue whose every list is sorted and non-empty |
| Discovery.CategoriesAreToolDirectories | core/discovery.py:25-41 | a category is listed iff a directory of that name holds a tool; its list is a permutation of that directory's tools; plain files never appear |
| Discovery.ListedToolsQualify | core/discovery.py:32-41 | with distinct category names, a tool is listed under a category iff it is a directory there holding `<tool>.yaml` |
| Discovery.BorgmaticUnderBackup | tests/test_discovery.py:5-29 | `backup/borgmatic/borgmatic.yaml` is discovered as `{"backup": ["borgmatic"]}` |
| Discovery.DiscoveredToolIsFound | core/engine/paths.py:38-40 | a discovered lower-case tool whose `<tool>.yaml` is a file is found by the definition lookup |
| GlobalConfig.DefaultsIgnoreCase | utils/config.py:26 | tool names that differ only in ASCII case get the same defaults |
| GlobalConfig.UnavailableDocumentGivesNothing | utils/config.py:12-13 | without a readable global document every tool gets `{}` |
| GlobalConfig.OtherTablesIrrelevant | utils/config.py:25-26 | adding or replacing a table under any name other than the lower-cased tool name leaves that tool's defaults unchanged |
| GlobalConfig.DefaultsComeFromOwnTable | utils/config.py:25-26 | a tool with a table under its lower-cased name gets exactly that table; any other tool gets `{}` |
| Wizard.ToolTableDecidesDefault | core/engine/wizard.py:34-35 | with the tool's table as the prompts' global defaults, a key set there is the prompt's effective default, and any other key falls back to the prompt's own `default` |
| Wizard.SaveConfig | core/engine/wizard.py:14-21 | the file is written iff nothing exists at the path or the user answered `y`; a declined save changes nothing; only an existing file or directory costs a line; a directory or an unopenable path raises; an existing path answered with anything but `y` is left alone and costs one line; a new writable path, or an existing one answered `y` that is a writable file, gets the content |
| Wizard.DirectoryAtOutputAsksFirst | core/engine/wizard.py:16-19 | a directory at the output path is asked about like a file: an empty or `n` answer declines cleanly, a `y` reaches the failing `open` |
| Wizard.SavedFileReadsBack | core/engine/wizard.py:19-21 | after a save the output holds the rendered text and every other file is as before |
| Wizard.InjectContext | core/engine/wizard.py:42 | the context gains `generation_timestamp` and `output_path` and every other answer is unchanged |
| Wizard.EncryptionArg | core/engine/wizard.py:44-45 | the flag is `--encryption=none` iff the passphrase is falsy, else `--encryption='<passphrase>'` |
| Wizard.EncryptionArgInjective | core/engine/wizard.py:45 | two passphrases give the same flag only when both are falsy or they display the same |
| Wizard.PostProcess | core/engine/wizard.py:43-45 | only a tool named borgmatic (in any case) gains `encryption_arg`, derived from `encryption_passphrase`; other keys are unchanged |
| Wizard.Deliver | core/engine/wizard.py:39-54 | no output line means end of input; a template that fails to render crashes before the overwrite question; a rendered template at an existing path answered with anything but `y` ends declined with no change; a rendered template at a writable path, new or confirmed with `y`, is saved there with exactly that text, against the answers plus the added keys, and no other file changes; a save writes the rendered template at the asked path, needing a `y` when something exists there, and prints the success message (default `File saved.`) then one message per note, in order; the rendered context holds every answer unchanged except under `generation_timestamp`, `output_path` and (borgmatic only) `encryption_arg`, and nothing else; any other end leaves the files alone |
| Wizard.OnePromptRunSaves | core/engine/wizard.py:23-54 | end to end: a definition of one plain prompt, answered with a non-empty line and then a writable output path (with `y` when something exists there), saves the template rendered against that answer at that path and changes no other file |
| Wizard.RunConfigFlow | core/engine/wizard.py:23-54 | the run ends with definition-not-found exactly when the lookup fails; files change only on a save; a save holds the template rendered beside the definition, against a context that carries the collected answers |
| Wizard.NullHeadingCrashes | core/engine/wizard.py:30-32 | a `heading` entry that is null makes `heading.get` raise: the run ends there with nothing written |
| Wizard.Conclude | core/engine/wizard.py:35-54 | a raised prompt error ends the run with that error, no answers end it with nothing collected, and either way nothing is written |
| Wizard.NoAnswersNoOutput | core/engine/wizard.py:35-37 | an empty answer map ends the run before the output path is asked, with no file written |
| Wizard.ExistingOutputNeedsConsent | core/engine/wizard.py:16-18 | an existing output file or directory is never replaced without a `y` |
| Wizard.OnlyBorgmaticGetsEncryptionArg | core/engine/wizard.py:42-45 | a borgmatic run's context holds the derived flag; for every other tool the context is the answers plus the two added keys |
| Backup.BackupDirShape | core/backup.py:18-22 | for a module directory without a trailing slash the category directory is `<module>/../definitions/backup` |
| Backup.ToolDirShape | core/backup.py:18-23 | the tool directory is `<module>/../definitions/backup/<lower>` |
| Backup.BackupDefinitionLayout | core/backup.py:18-25 | the definition is `<lower>.yaml` inside that tool directory, and the template directory is that tool directory |
| Backup.LegacyContext | core/backup.py:54-66 | the context gains the timestamp, the `now` object, `output_path` and `encryption_arg` for every tool; other answers are unchanged |
| Backup.LegacyWrite | core/backup.py:54-90 | a template that fails to render, or a directory at the output path, is reported with the definition's error template; a rendered template and an unopenable output give the missing-files message; a rendered template and a writable output create the file with exactly that text, against the answers plus `generation_timestamp`, `now`, `output_path` and `encryption_arg`, and no other file changes |
| Backup.LegacyDeliver | core/backup.py:40-97 | an existing file or directory answered with anything but `y` is declined with no change, and one with no line left is reported; a rendered template at a writable path, new or confirmed with `y`, is created there with exactly that text; errors, a directory at the output path included, are reported with the definition's error template; an unopenable output gives the missing-files message; a write holds the template rendered against the answers plus `generation_timestamp`, `now`, `output_path` and `encryption_arg`, and prints the success message (default `Successfully created configuration file.`) then the notes in order |
| Backup.FlowWithDefinition | core/backup.py:30-93 | a null `heading` escapes the handler; otherwise the run is cancelled exactly when the legacy loop collected no answers; after answers, an existing output answered with anything but `y` is declined, and a writable output (new or confirmed) with a rendered template is created with exactly that text; files change only on a write, whose context carries the collected answers |
| Backup.CreateConfigFlowAsWritten | core/backup.py:15-97 | as written, an empty or null definition ends with the unbound-`heading` crash and nothing is written |
| Backup.OnePromptFlowCreates | core/backup.py:18-97 | end to end, in both versions of the command: a definition file of one plain prompt, answered with a non-empty line and then a writable output path (with `y` when something exists there), creates the template rendered against that answer at that path and changes no other file |
| Backup.CreateConfigFlow | core/backup.py:26-28 | as intended, an empty or null definition ends the command with exit status 1 and never reaches the unbound-`heading` crash |
| Backup.FlowsAgreeOnLoadedDefinitions | core/backup.py:26-30 | the two versions agree exactly when the definition loaded as a non-empty document |
| Backup.NullDocumentHitsUnboundHeading | core/backup.py:91-96 | an empty YAML file triggers the crash as written and exit status 1 as intended |
| Backup.UnreadableDefinitionHitsUnboundHeading | core/backup.py:26-28 | a missing or unparsable definition file loads as `{}`: the crash as written, exit status 1 as intended |
| Backup.NullHeadingEscapesHandler | core/backup.py:30-32 | a null `heading` entry makes `heading.get` raise in the `try` and again in the handler (line 93), so the error escapes in both versions, nothing written |
| Backup.MissingFilesMessageMeansUnwritableOutput | core/backup.py:87-90 | the "definition files are missing" message implies the definition loaded and the output path the user gave after the prompts could not be opened |
| Backup.ExistingOutputNeedsConsent | core/backup.py:42-52 | an existing output file or directory is never replaced without a `y` |

## Left out

- Rich console output is not modelled: titles, section headers, warnings, colours. Success and note messages are recorded as (template, binding) pairs, because Python's `str.format` is not modelled. A note whose formatting raises is therefore not modelled either.
- The Typer command tree is not modelled: `main.py`, `_register_tool_commands`, `register_dynamic_commands`, the backup sub-app and `core/engine/display.py`. It is command-line plumbing with no decision logic.
- `utils/loaders.py` is not part of this model. Its results are parameters: `Env.load` gives the document `load_yaml` parsed, with `None` for YAML's null document. `Env.globalDoc` gives the parsed TOML, with `None` for "`{}` because missing or unparsable".
- The legacy flow reads its definition through `load_prompts_from_yaml` (`LegacyPrompter.LoadPromptsFromYaml`). File reading and YAML parsing are the parameter `LegacyEnv.read`: missing, unparsable, or the parsed document.
- Jinja2 rendering, `re.match`, `str()` of a non-string and the final template rendering are uninterpreted oracles. Template lookup failures are one "rendering failed" result.
- `Prompt.ask` internals are not modelled: choice re-asking and password masking happen before a line reaches the model. `PromptSpec.choices` and `isPassword` are carried but play no part.
- `datetime.now()` and `strftime` are a timestamp parameter. The legacy `now` object is `Values.Instant(stamp)`.
- Text.Lower: lower-cases ASCII letters only, because Python's full Unicode case mapping is out of scope. Tool names are assumed ASCII.
- Values.Value has no floats, dicts or lists other than lists of strings. Answers from YAML or TOML of other shapes are not modelled.
- Null `before`, `after`, `logs` or `notes` entries are not modelled: `Heading.before` and `Heading.after` are `Option`s and `After`'s fields are plain values, so such a document cannot be expressed. In the source a null `after` or `logs` raises after the file is written (core/engine/wizard.py:51-52; core/backup.py:76-77, and again in the handler on line 93), a null `notes` raises once the success message is printed, and a null `before` raises before any prompt.
- Documents that are not mappings, and `heading`, `after` or `logs` entries of any other type, are not modelled.
- `os.walk` and `os.listdir` are modelled on a finite tree: listing order is the order of `Dir.entries`. Symbolic links, permission errors and concurrent changes to the tree are not modelled.
- `get_resource_path`: `sys._MEIPASS` is the `frozenBase` parameter. The project root is a parameter too, so `os.path.abspath` normalisation is not modelled.
- Backup.LegacyWrite: every failure to open the output file other than a directory is treated as the missing-directory case (`FileNotFoundError`), as in LegacyDeliver below.
- Backup.LegacyDeliver: every failure to open the output file is treated as the missing-directory case (`FileNotFoundError`). A permission error would instead reach the generic handler and its error template.
- Wizard.Deliver: a failure to open the output file is one `WriteFailed` crash, whatever the operating-system error.
- Prompter.PromptForConfig and Wizard.RunConfigFlow: when the run crashes, the lines left unread are not returned.
- Prompter.AskUntilValid: the loop re-asks as long as lines remain. An interactive user could re-ask forever; the finite input bounds it.

## Findings

| source | as written | input that shows it | evidently intended | confidence | as-written member | corrected member |
|---|---|---|---|---|---|---|
| core/backup.py:26-28 | `raise Exit(1)` for an empty definition sits inside the `try`. `except Exception` (line 91) catches it, and its handler reads `heading` (lines 92-96), which is not yet assigned. | A definition file that is empty (the null document), parses to `{}`, is missing or does not parse (`load_prompts_from_yaml` returns `{}` for the last two). `prompts` is falsy, `Exit(1)` is raised and caught, and `UnboundLocalError` escapes the command. | The command ends with exit status 1, as the comment on line 28 says. | not executed | Backup.CreateConfigFlowAsWritten | Backup.CreateConfigFlow |

## Behaviour worth knowing

- **Null definition documents.** `load_yaml` returns `{}` on a parse error, but an empty file is YAML's null document and comes back as `None`. `data.get` then raises (core/engine/wizard.py:30-31); the model ends that run as `Crashed(NullDocument)`. A `heading` entry that is null raises one line later (`Wizard.NullHeadingCrashes`), and in the legacy flow it escapes the error handler (`Backup.NullHeadingEscapesHandler`).
- **Gates with neither `key` nor `value`.** The current engine compares `config.get(dep.get("key"))` with `dep.get("value")` (utils/prompter.py:61-62), so such a gate compares `None == None` and never skips (`Prompter.EmptyGateNeverSkips`). A gate on an unanswered key whose `value` is missing does not skip either. Only the legacy engine skips malformed gates (`EngineComparison.MalformedGatesDiverge`).
- **Missing entries.** In the current engine, a prompt without `key` or `prompt` raises `KeyError` and ends the run (`Prompter.GetInput`); the legacy engine reports it and goes on.
- **Gate equality.** It is Python `==`, so `True` matches `1`.
- **Required list prompts.** The required check sees the raw answer, so a required list prompt can yield `[]` (`Prompter.RequiredListCanBeEmpty`).
- **The "definition files are missing" message in core/backup.py:87-90.** `load_prompts_from_yaml` catches `FileNotFoundError` itself, so this message never concerns the definition. It is printed only when the output file cannot be opened (`Backup.MissingFilesMessageMeansUnwritableOutput`).

=== FILE: backup.dfy ===
/**
 * The legacy backup wizard (`core/backup.py`, `_create_config_flow`): the
 * definition sits at a fixed place under `definitions/backup/`, answers
 * come from the legacy prompt loop, and every error raised inside the flow
 * is reported by one of two `except` clauses instead of escaping.
 */
module Backup {
  import opened Wrappers
  import opened Values
  import opened Text
  import opened Definition
  import opened Interaction
  import opened Paths
  import opened Wizard
  import LegacyPrompter

  /**
   * The directory of the module, what reading each YAML file gives, the formatted
   * current time, which paths name an existing directory, and which paths can be
   * opened for writing.
   */
  datatype LegacyEnv = LegacyEnv(
    moduleDir: string,
    read: string -> LegacyPrompter.YamlRead,
    stamp: string,
    isDir: string -> bool,
    writable: string -> bool)

  /**
   * How one run of the legacy flow ends. `UnboundHeading` and `NullHeadingEscaped`
   * are errors raised inside the generic `except` handler, which escape the command.
   */
  datatype LegacyOutcome =
    | Exited(status: int)
    | UnboundHeading
    | NullHeadingEscaped
    | Cancelled
    | Declined
    | Reported(template: string)
    | MissingFilesReported
    | Created(output: string, context: Config, messages: seq<Message>)

  datatype LegacyFinish = LegacyFinish(outcome: LegacyOutcome, files: Files)

  /** The success message when the definition's `after.logs` has none. */
  const LegacySuccess := "Successfully created configuration file."

  /** The message the generic handler prints when the definition's `after.logs` has no `error`. */
  const LegacyError := "An unexpected error occurred: {e}"

  /** The key under which the legacy flow also stores the `datetime` itself. */
  const NowKey := "now"

  /** `os.path.join(module_dir, "..", "definitions", "backup")`. */
  function BackupDir(moduleDir: string): string {
    PathJoin(PathJoin(PathJoin(moduleDir, ".."), "definitions"), "backup")
  }

  /** `os.path.join(module_dir, "..", "definitions", "backup", lower, lower + ".yaml")`. */
  function DefinitionPath(moduleDir: string, tool: string): string {
    PathJoin(PathJoin(BackupDir(moduleDir), Lower(tool)), Lower(tool) + ".yaml")
  }

  /** The definition as `load_prompts_from_yaml` returns it for the tool's definition path. */
  function LoadedDefinition(env: LegacyEnv, tool: string): Option<DefDoc> {
    LegacyPrompter.LoadPromptsFromYaml(env.read(DefinitionPath(env.moduleDir, tool)))
  }

  /** Joining a relative name onto a directory without a trailing slash puts one slash between them. */
  lemma JoinPlain(a: string, b: string)
    requires a != "" && a[|a| - 1] != '/'
    requires b != "" && b[0] != '/' && b[|b| - 1] != '/'
    ensures PathJoin(a, b) == a + "/" + b
    ensures PathJoin(a, b)[|PathJoin(a, b)| - 1] != '/'
  {
  }

  /** Lower-casing keeps every `/` where it was and adds none. */
  lemma LowerKeepsSlashes(s: string)
    ensures '/' in Lower(s) <==> '/' in s
  {
    if '/' in s {
      var i :| 0 <= i < |s| && s[i] == '/';
      assert Lower(s)[i] == '/';
    }
    if '/' in Lower(s) {
      var i :| 0 <= i < |Lower(s)| && Lower(s)[i] == '/';
      assert s[i] == '/';
    }
  }

  /** A name without slashes, lower-cased, neither starts nor ends with one. */
  lemma LowerNameHasNoSlashEnds(tool: string)
    requires tool != "" && '/' !in tool
    ensures Lower(tool) != "" && '/' !in Lower(tool)
  {
    LowerKeepsSlashes(tool);
  }

  /** The tool's directory under the module: `<module>/../definitions/backup/<lower>`. */
  function ToolDirectory(moduleDir: string, tool: string): string {
    ToolDir(moduleDir, Lower(tool))
  }

  /** `<module>/../definitions/backup/<l>`. */
  function ToolDir(moduleDir: string, l: string): string {
    moduleDir + "/../definitions/backup/" + l
  }

  /** The category directory, spelled out for a module directory without a trailing slash. */
  lemma BackupDirShape(m: string)
    requires m != "" && m[|m| - 1] != '/'
    ensures BackupDir(m) == m + "/../definitions/backup"
  {
    var a := PathJoin(m, "..");
    JoinPlain(m, "..");
    var b := PathJoin(a, "definitions");
    JoinPlain(a, "definitions");
    assert b == m + "/../definitions" by {
      assert a + "/" + "definitions" == m + ("/.." + "/" + "definitions");
    }
    JoinPlain(b, "backup");
    assert PathJoin(b, "backup") == m + "/../definitions/backup" by {
      assert b + "/" + "backup" == m + ("/../definitions" + "/" + "backup");
    }
  }

  /** The tool directory for a lower-cased name `l` without slashes, spelled out. */
  lemma ToolDirShape(m: string, l: string)
    requires m != "" && m[|m| - 1] != '/'
    requires l != "" && l[0] != '/' && l[|l| - 1] != '/'
    ensures PathJoin(BackupDir(m), l) == ToolDir(m, l)
  {
    var c := BackupDir(m);
    BackupDirShape(m);
    JoinPlain(c, l);
    assert c + "/" + l == m + ("/../definitions/backup" + "/") + l;
  }

  /** A name without slashes, with `.yaml` appended, still has none. */
  lemma YamlNameHasNoSlash(l: string)
    requires '/' !in l
    ensures '/' !in l + ".yaml"
  {
    var y := l + ".yaml";
    forall i | 0 <= i < |y| ensures y[i] != '/' {
      if i < |l| {
        assert y[i] == l[i] && l[i] in l;
      }
    }
  }

  /**
   * For a module directory without a trailing slash and a tool name without
   * slashes, the definition is `<lower>.yaml` inside `definitions/backup/<lower>`,
   * and the templates are looked up in that same directory.
   */
  lemma BackupDefinitionLayout(moduleDir: string, tool: string)
    requires moduleDir != "" && moduleDir[|moduleDir| - 1] != '/'
    requires tool != "" && '/' !in tool
    ensures DefinitionPath(moduleDir, tool) == ToolDirectory(moduleDir, tool) + "/" + DefinitionFileName(tool)
    ensures Dirname(DefinitionPath(moduleDir, tool)) == ToolDirectory(moduleDir, tool)
  {
    var l := Lower(tool);
    LowerNameHasNoSlashEnds(tool);
    assert l[0] in l && l[|l| - 1] in l;
    ToolDirShape(moduleDir, l);
    var d := ToolDir(moduleDir, l);
    assert d[|d| - 1] == l[|l| - 1];
    YamlNameHasNoSlash(l);
    JoinPlain(d, l + ".yaml");
    DirnameOfJoin(d, l + ".yaml");
  }

  /** The keys the legacy flow sets on top of the answers, for every tool. */
  const LegacyKeys: set<string> := {TimestampKey, NowKey, OutputKey, EncryptionKey}

  /** The template context: the answers plus the time (formatted and as an object), the output path, and the encryption flag. */
  function LegacyContext(o: Oracles, stamp: string, config: Config, output: string): (r: Config)
    ensures r.Keys == config.Keys + LegacyKeys
    ensures r[TimestampKey] == Str(stamp) && r[NowKey] == Instant(stamp) && r[OutputKey] == Str(output)
    ensures r[EncryptionKey] == Str(EncryptionArg(o, Get(config, PassphraseKey)))
    ensures forall k :: k in config && k !in LegacyKeys ==> r[k] == config[k]
  {
    var ctx := config[TimestampKey := Str(stamp)][NowKey := Instant(stamp)][OutputKey := Str(output)];
    assert Get(ctx, PassphraseKey) == Get(config, PassphraseKey);
    ctx[EncryptionKey := Str(EncryptionArg(o, Get(ctx, PassphraseKey)))]
  }

  /** The messages printed after the write: the success line, then the notes. */
  function CreatedMessages(after: After, output: string, ctx: Config): seq<Message> {
    [SuccessMessage(after.logs.success.GetOr(LegacySuccess), output)] + NoteMessages(after.notes, ctx)
  }

  /** The success line comes first, then one message per note, in order. */
  lemma CreatedMessagesInOrder(after: After, output: string, ctx: Config)
    ensures var m := CreatedMessages(after, output, ctx);
      && |m| == 1 + |after.notes|
      && m[0] == SuccessMessage(after.logs.success.GetOr(LegacySuccess), output)
      && forall i :: 0 <= i < |after.notes| ==> m[i + 1] == NoteMessage(after.notes[i], ctx)
  {
  }

  /** What a created run promises: the output holds the template rendered against the context, beside the definition. */
  ghost predicate CreatedWell(o: Oracles, env: LegacyEnv, tool: string, files: Files, r: LegacyFinish)
    requires r.outcome.Created?
  {
    var out := r.outcome.output;
    && env.writable(out) && !env.isDir(out)
    && out in r.files
    && r.files == files[out := r.files[out]]
    && o.renderFile(Dirname(DefinitionPath(env.moduleDir, tool)), TemplateName(tool), r.outcome.context) == Some(r.files[out])
    && r.outcome.context.Keys >= LegacyKeys
    && r.outcome.context[OutputKey] == Str(out)
    && |r.outcome.messages| > 0
    && r.outcome.messages[0].SuccessMessage?
    && r.outcome.messages[0].outputPath == out
  }

  /**
   * The flow after the answers: ask for the output path, confirm an overwrite
   * of whatever exists there, render, write. An error raised here is reported
   * with the definition's error template; a directory at the output path makes
   * `open` raise `IsADirectoryError`, which is such an error.
   */
  function LegacyDeliver(o: Oracles, env: LegacyEnv, tool: string, defaultFilename: string, after: After,
                         config: Config, lines: seq<string>, files: Files): (r: LegacyFinish)
    ensures !r.outcome.Created? ==> r.files == files
    ensures r.outcome in {Declined, Reported(after.logs.error.GetOr(LegacyError)), MissingFilesReported} || r.outcome.Created?
    ensures |lines| == 0 ==> r.outcome == Reported(after.logs.error.GetOr(LegacyError))
    ensures r.outcome.Created? ==> CreatedWell(o, env, tool, files, r)
    ensures r.outcome.Created? ==> (|lines| > 0 && r.outcome.output == AskText(defaultFilename, lines[0])
      && (!Exists(files, env.isDir, r.outcome.output) || (|lines| > 1 && AskText(OverwriteDefault, lines[1]) == "y")))
    ensures r.outcome.Created? ==> (|r.outcome.messages| == 1 + |after.notes|
      && r.outcome.messages[0].template == after.logs.success.GetOr(LegacySuccess)
      && forall i :: 0 <= i < |after.notes| ==> r.outcome.messages[i + 1] == NoteMessage(after.notes[i], r.outcome.context))
    ensures r.outcome == MissingFilesReported ==> |lines| > 0 && !env.writable(AskText(defaultFilename, lines[0]))
    ensures r.outcome.Created? ==> CarriesAnswers(config, r.outcome.context, LegacyKeys)
    ensures |lines| == 1 && Exists(files, env.isDir, AskText(defaultFilename, lines[0])) ==>
              r == LegacyFinish(Reported(after.logs.error.GetOr(LegacyError)), files)
    ensures |lines| > 1 && Exists(files, env.isDir, AskText(defaultFilename, lines[0])) && AskText(OverwriteDefault, lines[1]) != "y" ==>
              r == LegacyFinish(Declined, files)
    ensures |lines| > 0 && SaveAllowed(files, env.isDir, env.writable, AskText(defaultFilename, lines[0]), lines[1..])
            && LegacyRendered(o, env, tool, config, AskText(defaultFilename, lines[0])).Some? ==>
              && r.outcome.Created? && r.outcome.output == AskText(defaultFilename, lines[0])
              && r.outcome.context == LegacyContext(o, env.stamp, config, AskText(defaultFilename, lines[0]))
              && r.files == files[AskText(defaultFilename, lines[0]) := LegacyRendered(o, env, tool, config, AskText(defaultFilename, lines[0])).value]
  {
    var failed := LegacyFinish(Reported(after.logs.error.GetOr(LegacyError)), files);
    if |lines| == 0 then failed
    else
      var output := AskText(defaultFilename, lines[0]);
      var rest := lines[1..];
      var there := Exists(files, env.isDir, output);
      if there && |rest| == 0 then failed
      else if there && AskText(OverwriteDefault, rest[0]) != "y" then LegacyFinish(Declined, files)
      else LegacyWrite(o, env, tool, after, config, output, files)
  }

  /** The template beside the definition, rendered against the context built from the answers and the output path. */
  function LegacyRendered(o: Oracles, env: LegacyEnv, tool: string, config: Config, output: string): Option<string> {
    o.renderFile(Dirname(DefinitionPath(env.moduleDir, tool)), TemplateName(tool), LegacyContext(o, env.stamp, config, output))
  }

  /** Render the template against the context and write it: the part of the flow after any overwrite was confirmed. */
  function LegacyWrite(o: Oracles, env: LegacyEnv, tool: string, after: After, config: Config, output: string,
                       files: Files): (r: LegacyFinish)
    ensures !r.outcome.Created? ==> r.files == files
    ensures r.outcome in {Reported(after.logs.error.GetOr(LegacyError)), MissingFilesReported} || r.outcome.Created?
    ensures r.outcome.Created? ==> CreatedWell(o, env, tool, files, r) && r.outcome.output == output
    ensures r.outcome.Created? ==> (|r.outcome.messages| == 1 + |after.notes|
      && r.outcome.messages[0].template == after.logs.success.GetOr(LegacySuccess)
      && forall i :: 0 <= i < |after.notes| ==> r.outcome.messages[i + 1] == NoteMessage(after.notes[i], r.outcome.context))
    ensures r.outcome == MissingFilesReported ==> !env.writable(output)
    ensures r.outcome.Created? ==> CarriesAnswers(config, r.outcome.context, LegacyKeys)
    ensures LegacyRendered(o, env, tool, config, output).None? || env.isDir(output) ==>
              r == LegacyFinish(Reported(after.logs.error.GetOr(LegacyError)), files)
    ensures LegacyRendered(o, env, tool, config, output).Some? && !env.isDir(output) && !env.writable(output) ==>
              r == LegacyFinish(MissingFilesReported, files)
    ensures LegacyRendered(o, env, tool, config, output).Some? && !env.isDir(output) && env.writable(output) ==>
              && r.outcome.Created? && r.outcome.output == output
              && r.outcome.context == LegacyContext(o, env.stamp, config, output)
              && r.files == files[output := LegacyRendered(o, env, tool, config, output).value]
  {
    var ctx := LegacyContext(o, env.stamp, config, output);
    match LegacyRendered(o, env, tool, config, output)
    case None => LegacyFinish(Reported(after.logs.error.GetOr(LegacyError)), files)
    case Some(text) =>
      if env.isDir(output) then LegacyFinish(Reported(after.logs.error.GetOr(LegacyError)), files)
      else if !env.writable(output) then LegacyFinish(MissingFilesReported, files)
      else
        var messages := CreatedMessages(after, output, ctx);
        CreatedMessagesInOrder(after, output, ctx);
        LegacyFinish(Created(output, ctx, messages), files[output := text])
  }

  /**
   * The flow once the definition loaded as a non-empty document. A null `heading`
   * makes `heading.get('title', ...)` raise, and the handler's own `heading.get`
   * raises again; otherwise the legacy prompt loop runs, then delivery.
   */
  function FlowWithDefinition(o: Oracles, env: LegacyEnv, tool: string, defaultFilename: string, doc: DefDoc,
                              files: Files, input: seq<string>): (r: LegacyFinish)
    ensures !r.outcome.Created? ==> r.files == files
    ensures r.outcome !in {UnboundHeading, Exited(1)}
    ensures r.outcome == NullHeadingEscaped <==> doc.heading.NullHeading?
    ensures !doc.heading.NullHeading? ==>
      (r.outcome == Cancelled <==> LegacyPrompter.PromptForConfig(o, HeadingOf(doc), input).config == map[])
    ensures r.outcome.Created? ==> CreatedWell(o, env, tool, files, r)
    ensures r.outcome.Created? ==> (!doc.heading.NullHeading?
      && r.outcome.messages[0].template == AfterOf(HeadingOf(doc)).logs.success.GetOr(LegacySuccess))
    ensures r.outcome == MissingFilesReported ==> (!doc.heading.NullHeading? &&
      var rest := LegacyPrompter.PromptForConfig(o, HeadingOf(doc), input).input;
      |rest| > 0 && !env.writable(AskText(defaultFilename, rest[0])))
    ensures r.outcome.Created? ==> (!doc.heading.NullHeading?
      && CarriesAnswers(LegacyPrompter.PromptForConfig(o, HeadingOf(doc), input).config, r.outcome.context, LegacyKeys))
    ensures !doc.heading.NullHeading? ==>
      var st := LegacyPrompter.PromptForConfig(o, HeadingOf(doc), input);
      st.config != map[] && |st.input| > 1 && Exists(files, env.isDir, AskText(defaultFilename, st.input[0])) &&
      AskText(OverwriteDefault, st.input[1]) != "y" ==>
        r == LegacyFinish(Declined, files)
    ensures !doc.heading.NullHeading? ==>
      var st := LegacyPrompter.PromptForConfig(o, HeadingOf(doc), input);
      st.config != map[] && |st.input| > 0 &&
      SaveAllowed(files, env.isDir, env.writable, AskText(defaultFilename, st.input[0]), st.input[1..]) &&
      LegacyRendered(o, env, tool, st.config, AskText(defaultFilename, st.input[0])).Some? ==>
        && r.outcome.Created? && r.outcome.output == AskText(defaultFilename, st.input[0])
        && r.files == files[AskText(defaultFilename, st.input[0]) := LegacyRendered(o, env, tool, st.config, AskText(defaultFilename, st.input[0])).value]
  {
    if doc.heading.NullHeading? then LegacyFinish(NullHeadingEscaped, files)
    else
      var heading := HeadingOf(doc);
      var st := LegacyPrompter.PromptForConfig(o, heading, input);
      if st.config == map[] then LegacyFinish(Cancelled, files)
      else LegacyDeliver(o, env, tool, defaultFilename, AfterOf(heading), st.config, st.input, files)
  }

  /**
   * `_create_config_flow` as written: `raise Exit(1)` for an empty definition is
   * caught by `except Exception`, whose handler reads `heading` before it is
   * assigned, so an `UnboundLocalError` escapes instead of the exit.
   */
  function CreateConfigFlowAsWritten(o: Oracles, env: LegacyEnv, tool: string, defaultFilename: string,
                                     files: Files, input: seq<string>): (r: LegacyFinish)
    ensures !DocTruthy(LoadedDefinition(env, tool)) ==> r == LegacyFinish(UnboundHeading, files)
    ensures DocTruthy(LoadedDefinition(env, tool)) ==> r.outcome != UnboundHeading
    ensures !r.outcome.Created? ==> r.files == files
  {
    var doc := LoadedDefinition(env, tool);
    if !DocTruthy(doc) then LegacyFinish(UnboundHeading, files)
    else FlowWithDefinition(o, env, tool, defaultFilename, doc.value, files, input)
  }

  /** `_create_config_flow` as evidently intended: an empty definition ends the command with exit status 1. */
  function CreateConfigFlow(o: Oracles, env: LegacyEnv, tool: string, defaultFilename: string,
                            files: Files, input: seq<string>): (r: LegacyFinish)
    ensures !DocTruthy(LoadedDefinition(env, tool)) <==> r.outcome == Exited(1)
    ensures r.outcome != UnboundHeading
    ensures !r.outcome.Created? ==> r.files == files
    ensures r.outcome.Created? ==> CreatedWell(o, env, tool, files, r)
    ensures r.outcome.Created? ==> (!LoadedDefinition(env, tool).value.heading.NullHeading?
      && r.outcome.messages[0].template == AfterOf(HeadingOf(LoadedDefinition(env, tool).value)).logs.success.GetOr(LegacySuccess))
    ensures r.outcome.Created? ==> (!LoadedDefinition(env, tool).value.heading.NullHeading?
      && CarriesAnswers(LegacyPrompter.PromptForConfig(o, HeadingOf(LoadedDefinition(env, tool).value), input).config,
                        r.outcome.context, LegacyKeys))
  {
    var doc := LoadedDefinition(env, tool);
    if !DocTruthy(doc) then LegacyFinish(Exited(1), files)
    else FlowWithDefinition(o, env, tool, defaultFilename, doc.value, files, input)
  }

  /** The two versions differ only for an empty definition. */
  lemma FlowsAgreeOnLoadedDefinitions(o: Oracles, env: LegacyEnv, tool: string, defaultFilename: string, files: Files, input: seq<string>)
    ensures DocTruthy(LoadedDefinition(env, tool)) <==>
      CreateConfigFlowAsWritten(o, env, tool, defaultFilename, files, input) == CreateConfigFlow(o, env, tool, defaultFilename, files, input)
  {
  }

  /**
   * End to end: a definition file holding one plain prompt, answered with a non-empty line and then
   * with an output path that can be written (and a `y` when something is already there), creates
   * the template rendered against that answer there and changes no other file, in both versions.
   */
  lemma OnePromptFlowCreates(o: Oracles, env: LegacyEnv, tool: string, defaultFilename: string, files: Files, input: seq<string>,
                             p: PromptSpec, hasOtherKeys: bool)
    requires env.read(DefinitionPath(env.moduleDir, tool))
               == LegacyPrompter.Parsed(Some(DefDoc(HeadingMap(Prompter.OnePromptHeading(p)), hasOtherKeys)))
    requires p.key.Some? && p.text.Some? && p.dependsOn.None? && !p.isList
    requires |input| > 1 && input[0] != ""
    requires SaveAllowed(files, env.isDir, env.writable, AskText(defaultFilename, input[1]), input[2..])
    requires LegacyRendered(o, env, tool, map[p.key.value := Str(input[0])], AskText(defaultFilename, input[1])).Some?
    ensures var r := CreateConfigFlow(o, env, tool, defaultFilename, files, input);
      var out := AskText(defaultFilename, input[1]);
      var config := map[p.key.value := Str(input[0])];
      && r.outcome.Created? && r.outcome.output == out && r.outcome.context == LegacyContext(o, env.stamp, config, out)
      && r.files == files[out := LegacyRendered(o, env, tool, config, out).value]
    ensures CreateConfigFlowAsWritten(o, env, tool, defaultFilename, files, input) == CreateConfigFlow(o, env, tool, defaultFilename, files, input)
  {
    var doc := DefDoc(HeadingMap(Prompter.OnePromptHeading(p)), hasOtherKeys);
    assert LoadedDefinition(env, tool) == Some(doc);
    LegacyPrompter.OnePromptAnswered(o, p, input);
    var st := LegacyPrompter.PromptForConfig(o, HeadingOf(doc), input);
    assert st.config != map[] by { assert p.key.value in st.config; }
    AnsweredFlowDelivers(o, env, tool, defaultFilename, files, input, doc);
    assert input[1..][1..] == input[2..];
  }

  /** Once the legacy loop gives answers for a loaded definition, both versions of the command deliver them. */
  lemma AnsweredFlowDelivers(o: Oracles, env: LegacyEnv, tool: string, defaultFilename: string, files: Files, input: seq<string>,
                             doc: DefDoc)
    requires LoadedDefinition(env, tool) == Some(doc) && !doc.heading.NullHeading? && DocTruthy(Some(doc))
    requires LegacyPrompter.PromptForConfig(o, HeadingOf(doc), input).config != map[]
    ensures var st := LegacyPrompter.PromptForConfig(o, HeadingOf(doc), input);
      && CreateConfigFlow(o, env, tool, defaultFilename, files, input)
           == LegacyDeliver(o, env, tool, defaultFilename, AfterOf(HeadingOf(doc)), st.config, st.input, files)
      && CreateConfigFlowAsWritten(o, env, tool, defaultFilename, files, input) == CreateConfigFlow(o, env, tool, defaultFilename, files, input)
  {
  }

  /** A YAML file that is empty (the null document) is enough to hit the crash. */
  lemma NullDocumentHitsUnboundHeading(o: Oracles, env: LegacyEnv, tool: string, defaultFilename: string, files: Files, input: seq<string>)
    requires env.read(DefinitionPath(env.moduleDir, tool)) == LegacyPrompter.Parsed(None)
    ensures CreateConfigFlowAsWritten(o, env, tool, defaultFilename, files, input).outcome == UnboundHeading
    ensures CreateConfigFlow(o, env, tool, defaultFilename, files, input).outcome == Exited(1)
  {
  }

  /**
   * A definition file that is missing or does not parse is loaded as `{}`, which
   * is falsy: as written the flow reaches the unbound `heading`, as intended it exits with status 1.
   */
  lemma UnreadableDefinitionHitsUnboundHeading(o: Oracles, env: LegacyEnv, tool: string, defaultFilename: string, files: Files, input: seq<string>)
    requires !env.read(DefinitionPath(env.moduleDir, tool)).Parsed?
    ensures CreateConfigFlowAsWritten(o, env, tool, defaultFilename, files, input) == LegacyFinish(UnboundHeading, files)
    ensures CreateConfigFlow(o, env, tool, defaultFilename, files, input) == LegacyFinish(Exited(1), files)
  {
  }

  /**
   * The "definition files are missing" message is printed only after the
   * definition loaded and the output could not be opened: the loader itself
   * turns a missing definition into `{}`.
   */
  lemma MissingFilesMessageMeansUnwritableOutput(o: Oracles, env: LegacyEnv, tool: string, defaultFilename: string, files: Files, input: seq<string>)
    requires CreateConfigFlow(o, env, tool, defaultFilename, files, input).outcome == MissingFilesReported
    ensures DocTruthy(LoadedDefinition(env, tool)) && !LoadedDefinition(env, tool).value.heading.NullHeading?
    ensures var rest := LegacyPrompter.PromptForConfig(o, HeadingOf(LoadedDefinition(env, tool).value), input).input;
      |rest| > 0 && !env.writable(AskText(defaultFilename, rest[0]))
  {
    var doc := LoadedDefinition(env, tool);
    assert DocTruthy(doc) && !doc.value.heading.NullHeading?;
    var st := LegacyPrompter.PromptForConfig(o, HeadingOf(doc.value), input);
    assert FlowWithDefinition(o, env, tool, defaultFilename, doc.value, files, input).outcome == MissingFilesReported;
    assert !env.writable(AskText(defaultFilename, st.input[0]));
  }

  /** An existing output file or directory is replaced only when the next line after the path is `y`. */
  lemma ExistingOutputNeedsConsent(o: Oracles, env: LegacyEnv, tool: string, defaultFilename: string, files: Files, input: seq<string>)
    requires DocTruthy(LoadedDefinition(env, tool))
    requires !LoadedDefinition(env, tool).value.heading.NullHeading?
    requires var st := LegacyPrompter.PromptForConfig(o, HeadingOf(LoadedDefinition(env, tool).value), input);
      |st.input| > 0 && Exists(files, env.isDir, AskText(defaultFilename, st.input[0]))
      && (|st.input| == 1 || AskText(OverwriteDefault, st.input[1]) != "y")
    ensures !CreateConfigFlow(o, env, tool, defaultFilename, files, input).outcome.Created?
    ensures CreateConfigFlow(o, env, tool, defaultFilename, files, input).files == files
  {
  }

  /**
   * A null `heading` entry is not caught by the flow: `heading.get` raises in the
   * `try`, and again in the `except Exception` handler, in both versions of the flow.
   */
  lemma NullHeadingEscapesHandler(o: Oracles, env: LegacyEnv, tool: string, defaultFilename: string, files: Files, input: seq<string>)
    requires LoadedDefinition(env, tool).Some?
    requires LoadedDefinition(env, tool).value.heading.NullHeading?
    ensures CreateConfigFlowAsWritten(o, env, tool, defaultFilename, files, input) == LegacyFinish(NullHeadingEscaped, files)
    ensures CreateConfigFlow(o, env, tool, defaultFilename, files, input) == LegacyFinish(NullHeadingEscaped, files)
  {
  }
}

=== FILE: config.dfy ===
/**
 * Global defaults (`utils/config.py`): the TOML file `~/.scaffoldr` holds
 * one table per tool, named by the tool's lower-cased name. The loader
 * yields `{}` when the file is missing or does not parse.
 */
module GlobalConfig {
  import opened Wrappers
  import opened Values
  import opened Text

  /** The parsed global document: tool table name to that tool's defaults. */
  type GlobalDoc = map<string, Config>

  /** `get_global_config`: the parsed document, or `{}` when the loader could not produce one. */
  function GetGlobalConfig(loaded: Option<GlobalDoc>): (r: GlobalDoc)
    ensures loaded.None? ==> r == map[]
    ensures loaded.Some? ==> r == loaded.value
  {
    loaded.GetOr(map[])
  }

  /** `get_tool_defaults`: the table under the tool's lower-cased name, or `{}`. */
  function GetToolDefaults(loaded: Option<GlobalDoc>, tool: string): Config {
    var doc := GetGlobalConfig(loaded);
    if Lower(tool) in doc then doc[Lower(tool)] else map[]
  }

  /** Tool names that differ only in the case of ASCII letters get the same defaults. */
  lemma DefaultsIgnoreCase(loaded: Option<GlobalDoc>, a: string, b: string)
    requires Lower(a) == Lower(b)
    ensures GetToolDefaults(loaded, a) == GetToolDefaults(loaded, b)
  {
  }

  /**
   * Only the tool's own table matters: adding or replacing a table under any
   * other name leaves the tool's defaults as they were.
   */
  lemma OtherTablesIrrelevant(doc: GlobalDoc, tool: string, name: string, table: Config)
    requires name != Lower(tool)
    ensures GetToolDefaults(Some(doc[name := table]), tool) == GetToolDefaults(Some(doc), tool)
  {
  }

  /**
   * `config.get(tool_name.lower(), {})`: a tool with a table under its lower-cased
   * name gets exactly that table, and every other tool gets `{}`.
   */
  lemma DefaultsComeFromOwnTable(loaded: Option<GlobalDoc>, tool: string)
    ensures loaded.Some? && Lower(tool) in loaded.value ==> GetToolDefaults(loaded, tool) == loaded.value[Lower(tool)]
    ensures !(loaded.Some? && Lower(tool) in loaded.value) ==> GetToolDefaults(loaded, tool) == map[]
  {
  }

  /** Without a readable global file every tool gets `{}`. */
  lemma UnavailableDocumentGivesNothing(tool: string)
    ensures GetToolDefaults(None, tool) == map[]
  {
  }
}

=== FILE: definition.dfy ===
/**
 * The parsed shape of a tool definition document (`<tool>.yaml`): a
 * `heading` holding ordered sections of prompts and an `after` block of
 * messages. A mapping entry that may be missing is an `Option`, or `Null`
 * where the source reads it with `.get(...)` and compares the result.
 */
module Definition {
  import opened Wrappers
  import opened Values

  /** A truthy `depends_on` mapping; `key` is `None` and `value` is `Null` when the entry is missing. */
  datatype Gate = Gate(key: Option<string>, value: Value)

  /** One prompt mapping. `text` is the `prompt` entry; `regex` is `""` when unset (both are falsy). */
  datatype PromptSpec = PromptSpec(
    key: Option<string>,
    text: Option<string>,
    default: Value,
    required: bool,
    isPassword: bool,
    isList: bool,
    choices: Option<seq<string>>,
    regex: string,
    dependsOn: Option<Gate>)

  /** A section groups prompts for display; its title and subtitle never affect the answers. */
  datatype Section = Section(title: Option<string>, subtitle: Option<string>, prompts: seq<PromptSpec>)

  /** `after.logs`: a missing `logs` mapping reads like one with neither entry. */
  datatype Logs = Logs(success: Option<string>, error: Option<string>)

  /** `after`: a missing `after` mapping reads like one with no logs and no notes. */
  datatype After = After(logs: Logs, notes: seq<string>)

  /** The `heading` mapping; `hasOtherKeys` records entries the wizard never reads (they still make it truthy). */
  datatype Heading = Heading(
    title: Option<string>,
    before: Option<seq<Section>>,
    after: Option<After>,
    hasOtherKeys: bool)

  /** The `heading` entry of a document: missing, present but null (`heading:` with nothing after it), or a mapping. */
  datatype HeadingEntry = NoHeading | NullHeading | HeadingMap(h: Heading)

  /** The whole document; `None` in place of a document stands for YAML's null document. */
  datatype DefDoc = DefDoc(heading: HeadingEntry, hasOtherKeys: bool)

  const EmptyHeading := Heading(None, None, None, false)

  const EmptyAfter := After(Logs(None, None), [])

  /** Python's `bool(heading)`: a mapping is truthy when it has an entry. */
  predicate HeadingTruthy(h: Heading) {
    h.title.Some? || h.before.Some? || h.after.Some? || h.hasOtherKeys
  }

  /** `bool(document)` for a loader result; the null document is falsy. */
  predicate DocTruthy(d: Option<DefDoc>) {
    d.Some? && (!d.value.heading.NoHeading? || d.value.hasOtherKeys)
  }

  /** `heading.get("before", [])`. */
  function Sections(h: Heading): seq<Section> {
    h.before.GetOr([])
  }

  /** `heading.get("after", {})`. */
  function AfterOf(h: Heading): After {
    h.after.GetOr(EmptyAfter)
  }

  /** `document.get("heading", {})` for a document whose `heading` entry, if any, is a mapping. */
  function HeadingOf(d: DefDoc): Heading
    requires !d.heading.NullHeading?
  {
    if d.heading.HeadingMap? then d.heading.h else EmptyHeading
  }

  /** All prompts of all sections, sections in document order and prompts in order within each. */
  function Flatten(sections: seq<Section>): seq<PromptSpec> {
    if |sections| == 0 then [] else sections[0].prompts + Flatten(sections[1..])
  }

  /** The set of keys the prompts declare. */
  function KeysOf(ps: seq<PromptSpec>): set<string> {
    set i | 0 <= i < |ps| && ps[i].key.Some? :: ps[i].key.value
  }

  /** No two prompts declare the same key, as definitions are written. */
  predicate UniqueKeys(ps: seq<PromptSpec>) {
    forall i, j :: 0 <= i < j < |ps| && ps[i].key.Some? && ps[j].key.Some? ==> ps[i].key != ps[j].key
  }
}

=== FILE: discovery.dfy ===
/**
 * Tool discovery (`core/discovery.py`, `discover_tools`): the definitions
 * directory holds one directory per category, each holding one directory
 * per tool; a tool counts when its directory has an entry `<tool>.yaml`.
 */
module Discovery {
  import opened Wrappers
  import opened Text
  import opened Paths

  /** Categories to their tools, as `discover_tools` returns them. */
  type Catalogue = map<string, seq<string>>

  /** `os.listdir` on something that is not a directory raises. */
  datatype ListError = NotADirectory

  /** Some entry of `es` is called `name`: `os.path.exists` inside that directory. */
  predicate HasEntry(es: seq<Entry>, name: string) {
    exists k :: 0 <= k < |es| && es[k].name == name
  }

  /** A category entry lists `e` as a tool: a directory holding `<name>.yaml`, file or directory. */
  predicate IsTool(e: Entry) {
    e.node.Dir? && HasEntry(e.node.entries, e.name + ".yaml")
  }

  /** The tools of one category, in listing order. */
  function ToolsIn(es: seq<Entry>): (r: seq<string>)
    ensures forall t :: t in r <==> exists k :: 0 <= k < |es| && IsTool(es[k]) && es[k].name == t
    ensures |r| <= |es|
  {
    if |es| == 0 then []
    else (if IsTool(es[0]) then [es[0].name] else []) + ToolsIn(es[1..])
  }

  /** An entry of the definitions root that appears in the catalogue: a directory with at least one tool. */
  predicate IsCategory(e: Entry) {
    e.node.Dir? && |ToolsIn(e.node.entries)| > 0
  }

  /** The index of the last category entry named `c`, or -1: the one whose tools `discover_tools` keeps. */
  function LastCategory(es: seq<Entry>, c: string): (k: int)
    ensures -1 <= k < |es|
    ensures k >= 0 ==> IsCategory(es[k]) && es[k].name == c
    ensures forall j :: k < j < |es| ==> !(IsCategory(es[j]) && es[j].name == c)
    decreases |es|
  {
    if |es| == 0 then -1
    else if IsCategory(es[|es| - 1]) && es[|es| - 1].name == c then |es| - 1
    else LastCategory(es[..|es| - 1], c)
  }

  /** The loop over the categories of the root, in listing order; a later category of the same name overwrites. */
  function CatalogueOf(es: seq<Entry>): (r: Catalogue)
    ensures forall c :: c in r <==> LastCategory(es, c) >= 0
    ensures forall c :: c in r ==> r[c] == Sort(ToolsIn(es[LastCategory(es, c)].node.entries))
    decreases |es|
  {
    if |es| == 0 then map[]
    else
      var init := es[..|es| - 1];
      var m := CatalogueOf(init);
      var e := es[|es| - 1];
      if IsCategory(e) then m[e.name := Sort(ToolsIn(e.node.entries))] else m
  }

  /**
   * `discover_tools` given what exists at the definitions path: nothing there
   * gives `{}`; a plain file there makes `os.listdir` raise.
   */
  function DiscoverTools(defs: Option<Node>): (r: Result<Catalogue, ListError>)
    ensures defs.None? ==> r == Success(map[])
    ensures defs.Some? && defs.value.File? ==> r == Failure(NotADirectory)
    ensures defs.Some? && defs.value.Dir? ==> r.Success?
    ensures r.Success? ==> forall c :: c in r.value ==> Sorted(r.value[c]) && |r.value[c]| > 0
  {
    match defs
    case None => Success(map[])
    case Some(File) => Failure(NotADirectory)
    case Some(Dir(es)) =>
      var m := CatalogueOf(es);
      assert forall c :: c in m ==> Sorted(m[c]) && |m[c]| > 0 by {
        forall c | c in m ensures Sorted(m[c]) && |m[c]| > 0 {
          var ts := ToolsIn(es[LastCategory(es, c)].node.entries);
          assert ts[0] in multiset(ts);
        }
      }
      Success(m)
  }

  /**
   * A category is listed exactly when some directory of that name holds a tool;
   * its list is that directory's tools, sorted, none added and none lost.
   * Plain files among the categories never appear.
   */
  lemma CategoriesAreToolDirectories(es: seq<Entry>, c: string)
    ensures DiscoverTools(Some(Dir(es))).Success?
    ensures c in DiscoverTools(Some(Dir(es))).value
        <==> exists k :: 0 <= k < |es| && es[k].node.Dir? && |ToolsIn(es[k].node.entries)| > 0 && es[k].name == c
    ensures c in DiscoverTools(Some(Dir(es))).value ==>
      exists k :: 0 <= k < |es| && es[k].node.Dir? && es[k].name == c
        && multiset(DiscoverTools(Some(Dir(es))).value[c]) == multiset(ToolsIn(es[k].node.entries))
  {
    var m := DiscoverTools(Some(Dir(es))).value;
    var k := LastCategory(es, c);
    if exists j :: 0 <= j < |es| && es[j].node.Dir? && |ToolsIn(es[j].node.entries)| > 0 && es[j].name == c {
      var j :| 0 <= j < |es| && es[j].node.Dir? && |ToolsIn(es[j].node.entries)| > 0 && es[j].name == c;
      assert IsCategory(es[j]);
    }
    if c in m {
      assert IsCategory(es[k]);
    }
  }

  /** With category names distinct, a tool is listed under a category iff it is a tool directory there. */
  lemma ListedToolsQualify(es: seq<Entry>, k: nat, t: string)
    requires k < |es| && es[k].node.Dir?
    requires forall j :: 0 <= j < |es| && j != k ==> es[j].name != es[k].name
    ensures (es[k].name in DiscoverTools(Some(Dir(es))).value && t in DiscoverTools(Some(Dir(es))).value[es[k].name])
        <==> exists i :: 0 <= i < |es[k].node.entries| && IsTool(es[k].node.entries[i]) && es[k].node.entries[i].name == t
  {
    var m := DiscoverTools(Some(Dir(es))).value;
    var c := es[k].name;
    var ts := ToolsIn(es[k].node.entries);
    var last := LastCategory(es, c);
    if IsCategory(es[k]) {
      assert last == k;
      var sorted := m[c];
      assert multiset(sorted) == multiset(ts);
      assert t in sorted <==> t in multiset(ts);
      assert c in m;
      assert t in ts <==> exists i :: 0 <= i < |es[k].node.entries| && IsTool(es[k].node.entries[i]) && es[k].node.entries[i].name == t;
    } else {
      assert last == -1;
      assert t !in ts;
    }
  }

  /** The directory layout of the project's own test: `backup/borgmatic/borgmatic.yaml`. */
  lemma BorgmaticUnderBackup()
    ensures DiscoverTools(Some(Dir([Entry("backup", Dir([Entry("borgmatic", Dir([Entry("borgmatic.yaml", File)]))]))])))
         == Success(map["backup" := ["borgmatic"]])
  {
    var def := Entry("borgmatic.yaml", File);
    var tool := Entry("borgmatic", Dir([def]));
    assert tool.name + ".yaml" == "borgmatic.yaml";
    assert tool.node.entries[0].name == tool.name + ".yaml";
    assert HasEntry(tool.node.entries, tool.name + ".yaml");
    assert ToolsIn([tool]) == ["borgmatic"];
  }

  /** Every step of a subdirectory's walk is a step of its parent's walk. */
  lemma {:induction false} WalkEntriesReach(path: string, es: seq<Entry>, k: nat, s: WalkStep)
    requires k < |es| && s in Walk(PathJoin(path, es[k].name), es[k].node)
    ensures s in WalkEntries(path, es)
    decreases k
  {
    if k > 0 {
      assert es[1..][k - 1] == es[k];
      WalkEntriesReach(path, es[1..], k - 1, s);
    }
  }

  /**
   * A discovered tool with a lower-case name whose `<tool>.yaml` is a file is
   * found by the definition lookup (possibly in an earlier directory of the walk).
   */
  lemma DiscoveredToolIsFound(root: string, es: seq<Entry>, c: nat, t: nat)
    requires c < |es| && es[c].node.Dir?
    requires t < |es[c].node.entries| && es[c].node.entries[t].node.Dir?
    requires Lower(es[c].node.entries[t].name) == es[c].node.entries[t].name
    requires Entry(es[c].node.entries[t].name + ".yaml", File) in es[c].node.entries[t].node.entries
    ensures GetToolDefinitionPath(root, Some(Dir(es)), es[c].node.entries[t].name).Some?
  {
    var cat := es[c];
    var catPath := PathJoin(root, cat.name);
    var tool := cat.node.entries[t];
    var toolPath := PathJoin(catPath, tool.name);
    var fname := DefinitionFileName(tool.name);
    var i :| 0 <= i < |tool.node.entries| && tool.node.entries[i] == Entry(tool.name + ".yaml", File);
    assert tool.node.entries[i].node.File?;
    var step := WalkStep(toolPath, DirNames(tool.node.entries), FileNames(tool.node.entries));
    assert fname in step.files;
    assert step in Walk(toolPath, tool.node);
    WalkEntriesReach(catPath, cat.node.entries, t, step);
    assert step in Walk(catPath, cat.node);
    WalkEntriesReach(root, es, c, step);
    var steps := Walk(root, Dir(es));
    assert step in steps;
    var j :| 0 <= j < |steps| && steps[j] == step;
  }
}

=== FILE: engines.dfy ===
/**
 * How the two prompt engines relate: where they agree (well-formed gates,
 * default rendering, shaping of string answers) and where they part ways
 * (malformed gates, list prompts whose answer is not a string).
 */
module EngineComparison {
  import opened Wrappers
  import opened Values
  import opened Text
  import opened Definition
  import opened Interaction
  import Prompter
  import LegacyPrompter

  /** On a gate with a truthy key and a truthy value both engines ask exactly when the answer equals the value. */
  lemma WellFormedGatesAgree(g: Gate, config: Config)
    requires LegacyPrompter.GateWellFormed(g)
    ensures LegacyPrompter.Asks(Some(g), config) <==> Prompter.GateOpen(Some(g), config)
    ensures Prompter.GateOpen(Some(g), config) <==> PyEq(Get(config, g.key.value), g.value)
  {
  }

  /**
   * On a malformed gate the legacy engine always skips, while the current one
   * asks whenever the stored answer equals the gate's value, and a gate without
   * `key` is asked by it exactly when its `value` is missing too.
   */
  lemma MalformedGatesDiverge(g: Gate, config: Config)
    requires !LegacyPrompter.GateWellFormed(g)
    ensures !LegacyPrompter.Asks(Some(g), config)
    ensures g.key.Some? && g.key.value in config && PyEq(config[g.key.value], g.value) ==> Prompter.GateOpen(Some(g), config)
    ensures g.key.None? ==> (Prompter.GateOpen(Some(g), config) <==> g.value == Null)
  {
    NullEqualsOnlyNull(g.value);
  }

  /** A gate naming an unanswered key with no `value` is skipped by the legacy engine and asked by the current one. */
  lemma UnansweredKeyWithoutValue(k: string, config: Config)
    requires k !in config
    ensures !LegacyPrompter.Asks(Some(Gate(Some(k), Null)), config)
    ensures Prompter.GateOpen(Some(Gate(Some(k), Null)), config)
  {
  }

  /** Both engines render a default under the same condition: `"{{"` in a string implies the string is truthy. */
  lemma DefaultRenderingAgrees(o: Oracles, d: Value, config: Config)
    ensures LegacyPrompter.RenderDefault(o, d, config) == Prompter.RenderVal(o, d, config)
  {
  }

  /** For a string answer, both engines shape a list prompt the same way (`""` gives `[]` in both). */
  lemma StringListShapingAgrees(p: PromptSpec, s: string)
    requires p.isList
    ensures LegacyPrompter.ShapeList(Str(s)) == Some(Prompter.Shape(p, Str(s)))
  {
    if s == "" {
      CommaListOfEmpty();
    }
  }

  /** A truthy non-string answer to a list prompt is kept by the current engine and makes the legacy shaping raise. */
  lemma NonStringListAnswerDiverges(p: PromptSpec, v: Value)
    requires p.isList && Truthy(v) && !v.Str?
    ensures Prompter.Shape(p, v) == v
    ensures LegacyPrompter.ShapeList(v).None?
  {
  }

  /**
   * An empty line on a list prompt whose default is a truthy non-string (a YAML
   * list, say): the legacy loop stores nothing under the key, keeps whatever was
   * there, reads the line and records an unexpected error.
   */
  lemma NonStringListDefaultSkipsKey(o: Oracles, p: PromptSpec, st: LegacyPrompter.LState)
    requires p.isList && p.key.Some? && p.text.Some? && LegacyPrompter.Asks(p.dependsOn, st.config)
    requires |st.input| > 0 && st.input[0] == ""
    requires Truthy(p.default) && !p.default.Str?
    ensures LegacyPrompter.Step(o, p, st).config == st.config
    ensures p.key.value in LegacyPrompter.Step(o, p, st).config <==> p.key.value in st.config
    ensures LegacyPrompter.Step(o, p, st).input == st.input[1..]
    ensures LegacyPrompter.Step(o, p, st).notices == st.notices + [LegacyPrompter.UnexpectedError]
  {
    var v := Ask(LegacyPrompter.RenderDefault(o, p.default, st.config), st.input[0]);
    assert v == p.default;
    NonStringListAnswerDiverges(p, v);
  }
}

=== FILE: interaction.dfy ===
/**
 * The collaborators the wizard calls but does not implement: Jinja2
 * rendering, `re.match`, Python's `str()` of a non-string value, and the
 * terminal. The terminal is a finite sequence of lines, each one what
 * `Prompt.ask` accepted (its own choice checking and masking happen before
 * the line reaches the wizard).
 */
module Interaction {
  import opened Wrappers
  import opened Values

  /** The foreign functions, as total functions; a rendering that raises is `None`. */
  datatype Oracles = Oracles(
    render: (string, Config) -> Option<string>,
    matches: (string, string) -> bool,
    show: Value -> string,
    renderFile: (string, string, Config) -> Option<string>)

  /**
   * What escaped the wizard: a missing mapping entry, the end of the input,
   * `.get` on a null document or a null `heading`, a failed final rendering,
   * an output file that cannot be opened.
   */
  datatype Raised =
    | MissingEntry(name: string)
    | EndOfInput
    | NullDocument
    | HeadingIsNull
    | TemplateFailed
    | WriteFailed

  /** `str(v)`: a string is itself, anything else goes to the oracle. */
  function Display(o: Oracles, v: Value): string {
    if v.Str? then v.s else o.show(v)
  }

  /**
   * The value `Prompt.ask(..., default=d)` returns for an accepted line:
   * an empty line gives the default back untouched, any other line is the answer.
   */
  function Ask(d: Value, line: string): (v: Value)
    ensures line != "" ==> v == Str(line)
    ensures line == "" ==> v == d
  {
    if line == "" then d else Str(line)
  }

  /** `Prompt.ask` with a string default always yields a string. */
  function AskText(d: string, line: string): (s: string)
    ensures Ask(Str(d), line) == Str(s)
  {
    if line == "" then d else line
  }
}

=== FILE: paths.dfy ===
/**
 * Resource paths and definition lookup (`core/engine/paths.py`) over an
 * abstract directory tree. A directory lists its entries in the order the
 * operating system returns them; `os.walk` visits a directory, then each
 * subdirectory in that order, depth first.
 */
module Paths {
  import opened Wrappers
  import opened Text

  /** A directory tree: a file, or a directory of named entries. */
  datatype Node = File | Dir(entries: seq<Entry>)

  datatype Entry = Entry(name: string, node: Node)

  /** One triple `os.walk` yields: the directory's path, its subdirectory names, its other entries' names. */
  datatype WalkStep = WalkStep(root: string, dirs: seq<string>, files: seq<string>)

  predicate IsAbsolute(p: string) {
    |p| > 0 && p[0] == '/'
  }

  /** `os.path.join(a, b)` on POSIX: an absolute `b` replaces `a`; otherwise one `/` separates them unless `a` is empty or ends in `/`. */
  function PathJoin(a: string, b: string): string {
    if IsAbsolute(b) then b
    else if a == "" || a[|a| - 1] == '/' then a + b
    else a + "/" + b
  }

  /** A join ends with its second part; a relative second part keeps the first part in front, with at most one `/` added between. */
  lemma PathJoinKeepsParts(a: string, b: string)
    ensures |b| <= |PathJoin(a, b)| && PathJoin(a, b)[|PathJoin(a, b)| - |b|..] == b
    ensures !IsAbsolute(b) ==> |a| <= |PathJoin(a, b)| - |b| && PathJoin(a, b)[..|a|] == a
    ensures !IsAbsolute(b) ==> |PathJoin(a, b)| - |a| - |b| == (if a == "" || a[|a| - 1] == '/' then 0 else 1)
    ensures !IsAbsolute(b) && a != "" && a[|a| - 1] != '/' ==> PathJoin(a, b)[|a|] == '/'
  {
  }

  /** `get_resource_path`: the bundle directory when frozen, the project root otherwise, joined with `relative`. */
  function GetResourcePath(frozenBase: Option<string>, projectRoot: string, relative: string): (r: string)
    ensures |relative| <= |r| && r[|r| - |relative|..] == relative
    ensures !IsAbsolute(relative) && frozenBase.Some? ==>
      |frozenBase.value| <= |r| && r[..|frozenBase.value|] == frozenBase.value
    ensures !IsAbsolute(relative) && frozenBase.None? ==>
      |projectRoot| <= |r| && r[..|projectRoot|] == projectRoot
    ensures IsAbsolute(relative) ==> r == relative
    ensures var base := frozenBase.GetOr(projectRoot);
      !IsAbsolute(relative) ==> |r| - |base| - |relative| == (if base == "" || base[|base| - 1] == '/' then 0 else 1)
    ensures var base := frozenBase.GetOr(projectRoot);
      !IsAbsolute(relative) && base != "" && base[|base| - 1] != '/' ==> r[|base|] == '/'
  {
    PathJoinKeepsParts(frozenBase.GetOr(projectRoot), relative);
    PathJoin(frozenBase.GetOr(projectRoot), relative)
  }

  /** The index just past the last `/` in `p` (`p.rfind("/") + 1`), or 0 when there is none. */
  function AfterLastSlash(p: string): (i: nat)
    ensures i <= |p|
    ensures i > 0 ==> p[i - 1] == '/'
    ensures forall k :: i <= k < |p| ==> p[k] != '/'
    decreases |p|
  {
    if |p| == 0 then 0
    else if p[|p| - 1] == '/' then |p|
    else AfterLastSlash(p[..|p| - 1])
  }

  /** `s.rstrip("/")`. */
  function TrimSlashes(s: string): (r: string)
    ensures |r| <= |s| && r == s[..|r|]
    ensures r == [] || r[|r| - 1] != '/'
    ensures forall k :: |r| <= k < |s| ==> s[k] == '/'
    decreases |s|
  {
    if |s| > 0 && s[|s| - 1] == '/' then TrimSlashes(s[..|s| - 1]) else s
  }

  /** `os.path.dirname(p)` on POSIX: everything before the last `/`, trailing slashes removed unless it is all slashes. */
  function Dirname(p: string): string {
    var head := p[..AfterLastSlash(p)];
    if head != "" && TrimSlashes(head) != "" then TrimSlashes(head) else head
  }

  /** The directory of a joined path is the directory it was joined onto. */
  lemma DirnameOfJoin(d: string, name: string)
    requires d != "" && d[|d| - 1] != '/'
    requires name != "" && '/' !in name
    ensures Dirname(PathJoin(d, name)) == d
  {
    var p := d + "/" + name;
    assert AfterLastSlash(p) == |d| + 1 by {
      assert forall k :: |d| + 1 <= k < |p| ==> p[k] == name[k - |d| - 1];
      AfterLastSlashOf(p, |d| + 1);
    }
    var head := p[..|d| + 1];
    assert head == d + "/";
    assert head[..|head| - 1] == d;
    assert TrimSlashes(head) == TrimSlashes(d);
    assert TrimSlashes(d) == d;
  }

  /** A slash at `i - 1` followed by no slash puts the last slash at `i - 1`. */
  lemma {:induction false} AfterLastSlashOf(p: string, i: nat)
    requires 0 < i <= |p| && p[i - 1] == '/'
    requires forall k :: i <= k < |p| ==> p[k] != '/'
    ensures AfterLastSlash(p) == i
    decreases |p|
  {
    if p[|p| - 1] != '/' {
      var q := p[..|p| - 1];
      assert forall k :: i <= k < |q| ==> q[k] == p[k];
      AfterLastSlashOf(q, i);
    }
  }

  /** Names of the subdirectories among `es`, in order. */
  function DirNames(es: seq<Entry>): (r: seq<string>)
    ensures forall x :: x in r <==> exists k :: 0 <= k < |es| && es[k].node.Dir? && es[k].name == x
  {
    if |es| == 0 then []
    else (if es[0].node.Dir? then [es[0].name] else []) + DirNames(es[1..])
  }

  /** Names of the non-directory entries among `es`, in order. */
  function FileNames(es: seq<Entry>): (r: seq<string>)
    ensures forall x :: x in r <==> exists k :: 0 <= k < |es| && es[k].node.File? && es[k].name == x
  {
    if |es| == 0 then []
    else (if es[0].node.File? then [es[0].name] else []) + FileNames(es[1..])
  }

  /** `os.walk(path)`, top-down: a file (or a path that cannot be listed) yields nothing. */
  function Walk(path: string, n: Node): seq<WalkStep>
    decreases n, 1
  {
    match n
    case File => []
    case Dir(es) => [WalkStep(path, DirNames(es), FileNames(es))] + WalkEntries(path, es)
  }

  /** The walks of the subdirectories of `path` among `es`, one after another. */
  function WalkEntries(path: string, es: seq<Entry>): seq<WalkStep>
    decreases es, 0
  {
    if |es| == 0 then []
    else Walk(PathJoin(path, es[0].name), es[0].node) + WalkEntries(path, es[1..])
  }

  /** Step `i` is the first whose file list holds `fname`. */
  ghost predicate FirstWith(steps: seq<WalkStep>, fname: string, i: int) {
    0 <= i < |steps| && fname in steps[i].files && forall j :: 0 <= j < i ==> fname !in steps[j].files
  }

  /** The first walked directory whose file list holds `fname`, joined with `fname`. */
  function FirstContaining(steps: seq<WalkStep>, fname: string): (r: Option<string>)
    ensures r.None? <==> forall i :: 0 <= i < |steps| ==> fname !in steps[i].files
    ensures r.Some? ==> exists i :: FirstWith(steps, fname, i) && r.value == PathJoin(steps[i].root, fname)
  {
    if |steps| == 0 then None
    else if fname in steps[0].files then Some(PathJoin(steps[0].root, fname))
    else
      var r := FirstContaining(steps[1..], fname);
      assert r.Some? ==> exists i :: FirstWith(steps, fname, i) && r.value == PathJoin(steps[i].root, fname) by {
        if r.Some? {
          var i :| FirstWith(steps[1..], fname, i) && r.value == PathJoin(steps[1..][i].root, fname);
          assert steps[i + 1] == steps[1..][i];
          forall j | 0 <= j < i + 1 ensures fname !in steps[j].files {
            if j > 0 {
              assert steps[j] == steps[1..][j - 1];
            }
          }
          assert FirstWith(steps, fname, i + 1);
        }
      }
      assert r.None? ==> forall i :: 0 <= i < |steps| ==> fname !in steps[i].files by {
        if r.None? {
          forall i | 0 <= i < |steps| ensures fname !in steps[i].files {
            if i > 0 {
              assert steps[i] == steps[1..][i - 1];
            }
          }
        }
      }
      r
  }

  /** The file a tool's definition lives in: the tool name lower-cased, with `.yaml`. */
  function DefinitionFileName(tool: string): string {
    Lower(tool) + ".yaml"
  }

  /**
   * `get_tool_definition_path`: `None` when the definitions root does not exist,
   * otherwise the first walked directory holding `<tool lower-cased>.yaml` as a file.
   * `defs` is what exists at `definitionsPath`.
   */
  function GetToolDefinitionPath(definitionsPath: string, defs: Option<Node>, tool: string): (r: Option<string>)
    ensures defs.None? ==> r.None?
    ensures defs.Some? && defs.value.File? ==> r.None?
    ensures r.Some? ==> (|DefinitionFileName(tool)| <= |r.value|
      && r.value[|r.value| - |DefinitionFileName(tool)|..] == DefinitionFileName(tool))
    ensures defs.Some? ==> (r.None? <==>
      forall i :: 0 <= i < |Walk(definitionsPath, defs.value)| ==> DefinitionFileName(tool) !in Walk(definitionsPath, defs.value)[i].files)
  {
    if defs.None? then None
    else
      FoundEndsWithName(Walk(definitionsPath, defs.value), DefinitionFileName(tool));
      FirstContaining(Walk(definitionsPath, defs.value), DefinitionFileName(tool))
  }

  /** What the search returns ends with the name searched for. */
  lemma FoundEndsWithName(steps: seq<WalkStep>, fname: string)
    ensures FirstContaining(steps, fname).Some? ==>
      var p := FirstContaining(steps, fname).value;
      |fname| <= |p| && p[|p| - |fname|..] == fname
  {
    var r := FirstContaining(steps, fname);
    if r.Some? {
      var i :| FirstWith(steps, fname, i) && r.value == PathJoin(steps[i].root, fname);
      PathJoinKeepsParts(steps[i].root, fname);
    }
  }

  /** Tool names that differ only in the case of ASCII letters find the same file. */
  lemma LookupIgnoresCase(definitionsPath: string, defs: Option<Node>, a: string, b: string)
    requires Lower(a) == Lower(b)
    ensures GetToolDefinitionPath(definitionsPath, defs, a) == GetToolDefinitionPath(definitionsPath, defs, b)
  {
  }
}

=== FILE: prompt_utils.dfy ===
/**
 * The legacy prompt engine (`utils/prompt_utils.py`): no global defaults
 * and no validation loop; a `depends_on` without a truthy `key` and a
 * truthy `value` skips its prompt; every error raised while handling one
 * prompt is caught, reported, and the loop moves on to the next prompt.
 */
module LegacyPrompter {
  import opened Wrappers
  import opened Values
  import opened Text
  import opened Definition
  import opened Interaction
  import Prompter

  /** The two reports the loop prints for an absorbed error: `KeyError`, or any other exception. */
  datatype Notice = ConfigurationWarning | UnexpectedError

  /** The answers, the lines not yet read, and the reports printed so far. */
  datatype LState = LState(config: Config, input: seq<string>, notices: seq<Notice>)

  /** A gate is usable only when both its `key` and its `value` are truthy. */
  predicate GateWellFormed(g: Gate) {
    g.key.Some? && g.key.value != "" && Truthy(g.value)
  }

  /** The prompt is asked when it has no gate, or a usable gate whose key holds exactly the gate's value. */
  predicate Asks(g: Option<Gate>, config: Config) {
    g.None? || (GateWellFormed(g.value) && PyEq(Get(config, g.value.key.value), g.value.value))
  }

  /** A default is rendered only when it is a truthy string containing `{{`; a failed rendering keeps it raw. */
  function RenderDefault(o: Oracles, d: Value, config: Config): (r: Value)
    ensures !(d.Str? && HasMarker(d.s)) ==> r == d
    ensures d.Str? && HasMarker(d.s) ==> r == Str(o.render(d.s, config).GetOr(d.s))
  {
    if Truthy(d) && d.Str? && ContainsMarker(d.s) then
      match o.render(d.s, config)
      case Some(t) => Str(t)
      case None => d
    else d
  }

  /** The list shaping of the legacy loop: a falsy answer is `[]`, a string is split, anything else raises. */
  function ShapeList(v: Value): Option<Value> {
    if !Truthy(v) then Some(StrList([]))
    else if v.Str? then Some(StrList(CommaList(v.s)))
    else None
  }

  /** Round trip: typing clean items separated by commas gives back exactly those items, an empty line included. */
  lemma ShapeListOfJoin(items: seq<string>)
    requires forall i :: 0 <= i < |items| ==> items[i] != "" && Stripped(items[i]) && ',' !in items[i]
    ensures ShapeList(Str(Join(items, ","))) == Some(StrList(items))
  {
    CommaListJoin(items);
    if Join(items, ",") == "" {
      CommaListOfEmpty();
    }
  }

  /** The value the loop stores for a line: the answer, list-shaped for a list prompt; `None` when the shaping raises. */
  function Shaped(o: Oracles, p: PromptSpec, config: Config, line: string): Option<Value> {
    var v := Ask(RenderDefault(o, p.default, config), line);
    if p.isList then ShapeList(v) else Some(v)
  }

  /** The body of the `try` for one prompt, with its `except` clauses. */
  function Step(o: Oracles, p: PromptSpec, st: LState): (r: LState)
    ensures !Asks(p.dependsOn, st.config) ==> r == st
    ensures p.text.None? ==> r.config == st.config && r.input == st.input
    ensures p.key.None? ==> r.config == st.config
    ensures p.key.None? && p.text.Some? && Asks(p.dependsOn, st.config) && |st.input| > 0
            ==> r.input == st.input[1..] && |r.notices| == |st.notices| + 1
    ensures |st.input| == 0 ==> r.config == st.config && r.input == st.input
    ensures r.config.Keys <= st.config.Keys + (if p.key.Some? then {p.key.value} else {})
    ensures st.config.Keys <= r.config.Keys
    ensures forall k :: k in st.config && (p.key.None? || k != p.key.value) ==> r.config[k] == st.config[k]
    ensures r.input == st.input || (|st.input| > 0 && r.input == st.input[1..])
    ensures Asks(p.dependsOn, st.config) && p.key.Some? && p.text.Some? && |st.input| > 0
            && Shaped(o, p, st.config, st.input[0]).Some? ==>
              && r.config == st.config[p.key.value := Shaped(o, p, st.config, st.input[0]).value]
              && r.input == st.input[1..] && r.notices == st.notices
    ensures Asks(p.dependsOn, st.config) && p.text.Some? && |st.input| > 0 && Shaped(o, p, st.config, st.input[0]).None? ==>
              r == LState(st.config, st.input[1..], st.notices + [UnexpectedError])
  {
    if !Asks(p.dependsOn, st.config) then st
    else if p.text.None? then st.(notices := st.notices + [ConfigurationWarning])
    else if |st.input| == 0 then st.(notices := st.notices + [UnexpectedError])
    else
      var shaped := Shaped(o, p, st.config, st.input[0]);
      var rest := st.input[1..];
      if shaped.None? then LState(st.config, rest, st.notices + [UnexpectedError])
      else if p.key.None? then LState(st.config, rest, st.notices + [ConfigurationWarning])
      else LState(st.config[p.key.value := shaped.value], rest, st.notices)
  }

  /** Every prompt of `ps` in order; nothing stops the loop. */
  function Run(o: Oracles, ps: seq<PromptSpec>, st: LState): (r: LState)
    ensures r.config.Keys <= st.config.Keys + KeysOf(ps)
    ensures st.config.Keys <= r.config.Keys
    ensures forall k :: k in st.config && k !in KeysOf(ps) ==> r.config[k] == st.config[k]
    ensures |r.input| <= |st.input| && r.input == st.input[|st.input| - |r.input|..]
    decreases |ps|
  {
    if |ps| == 0 then st
    else
      Prompter.KeysOfCons(ps);
      StepIsFramed(o, ps[0], st);
      Run(o, ps[1..], Step(o, ps[0], st))
  }

  /** One step reads at most the first line and changes at most the prompt's key. */
  lemma StepIsFramed(o: Oracles, p: PromptSpec, st: LState)
    ensures Step(o, p, st).config.Keys <= st.config.Keys + KeysOf([p])
    ensures Step(o, p, st).input == st.input[|st.input| - |Step(o, p, st).input|..]
  {
    Prompter.KeysOfCons([p]);
  }

  /** The loop is a left fold: `b` starts from what `a` left. */
  lemma {:induction false} RunAppend(o: Oracles, a: seq<PromptSpec>, b: seq<PromptSpec>, st: LState)
    ensures Run(o, a + b, st) == Run(o, b, Run(o, a, st))
    decreases |a|
  {
    if |a| == 0 {
      assert a + b == b;
    } else {
      assert (a + b)[0] == a[0];
      assert (a + b)[1..] == a[1..] + b;
      RunAppend(o, a[1..], b, Step(o, a[0], st));
    }
  }

  /** One step reads the same lines and sets the same answers whatever was printed before it. */
  lemma StepIgnoresNotices(o: Oracles, p: PromptSpec, st: LState, notices: seq<Notice>)
    ensures Step(o, p, st).config == Step(o, p, st.(notices := notices)).config
    ensures Step(o, p, st).input == Step(o, p, st.(notices := notices)).input
  {
    var st2 := st.(notices := notices);
    assert st2.config == st.config && st2.input == st.input;
    if Asks(p.dependsOn, st.config) && p.text.Some? && |st.input| > 0 {
      var shaped := Shaped(o, p, st.config, st.input[0]);
      if shaped.Some? && p.key.Some? {
        assert Step(o, p, st).config == st.config[p.key.value := shaped.value];
        assert Step(o, p, st2).config == st.config[p.key.value := shaped.value];
      }
    }
  }

  /** The printed reports never influence the answers or the lines read. */
  lemma {:induction false} NoticesIrrelevant(o: Oracles, ps: seq<PromptSpec>, st: LState, notices: seq<Notice>)
    ensures Run(o, ps, st).config == Run(o, ps, st.(notices := notices)).config
    ensures Run(o, ps, st).input == Run(o, ps, st.(notices := notices)).input
    decreases |ps|
  {
    if |ps| > 0 {
      var n1 := Step(o, ps[0], st);
      var n2 := Step(o, ps[0], st.(notices := notices));
      StepIgnoresNotices(o, ps[0], st, notices);
      NoticesIrrelevant(o, ps[1..], n1, n2.notices);
      assert n1.(notices := n2.notices) == n2;
    }
  }

  /** Running `pre`, one prompt, then `post` is running `post` from that prompt's step after `pre`. */
  lemma RunAroundOne(o: Oracles, pre: seq<PromptSpec>, p: PromptSpec, post: seq<PromptSpec>, st: LState)
    ensures Run(o, pre + [p] + post, st) == Run(o, post, Step(o, p, Run(o, pre, st)))
  {
    assert pre + [p] + post == pre + ([p] + post);
    RunAppend(o, pre, [p] + post, st);
    assert ([p] + post)[0] == p && ([p] + post)[1..] == post;
  }

  /** A prompt without a `prompt` entry only adds a report. */
  lemma StepWithoutText(o: Oracles, p: PromptSpec, st: LState)
    requires p.text.None?
    ensures Step(o, p, st) == st.(notices := Step(o, p, st).notices)
  {
  }

  /** An asked prompt without a `key` reads one line and only adds a report. */
  lemma StepWithoutKey(o: Oracles, p: PromptSpec, st: LState)
    requires p.key.None? && p.text.Some? && Asks(p.dependsOn, st.config) && |st.input| > 0
    ensures Step(o, p, st) == st.(input := st.input[1..]).(notices := Step(o, p, st).notices)
  {
  }

  /** A prompt without a `prompt` entry adds nothing and reads nothing: the later prompts run as if it were absent. */
  lemma PromptWithoutTextIsPassedOver(o: Oracles, pre: seq<PromptSpec>, p: PromptSpec, post: seq<PromptSpec>, st: LState)
    requires p.text.None?
    ensures Run(o, pre + [p] + post, st).config == Run(o, pre + post, st).config
    ensures Run(o, pre + [p] + post, st).input == Run(o, pre + post, st).input
  {
    var mid := Run(o, pre, st);
    RunAroundOne(o, pre, p, post, st);
    RunAppend(o, pre, post, st);
    var after := Step(o, p, mid);
    StepWithoutText(o, p, mid);
    NoticesIrrelevant(o, post, mid, after.notices);
  }

  /** A prompt without a `key` that is asked reads one line and adds nothing; the later prompts still run. */
  lemma PromptWithoutKeyConsumesOneLine(o: Oracles, pre: seq<PromptSpec>, p: PromptSpec, post: seq<PromptSpec>, st: LState)
    requires p.key.None? && p.text.Some?
    requires Asks(p.dependsOn, Run(o, pre, st).config) && |Run(o, pre, st).input| > 0
    ensures Run(o, pre + [p] + post, st).config
         == Run(o, post, Run(o, pre, st).(input := Run(o, pre, st).input[1..])).config
  {
    var mid := Run(o, pre, st);
    RunAroundOne(o, pre, p, post, st);
    var after := Step(o, p, mid);
    StepWithoutKey(o, p, mid);
    NoticesIrrelevant(o, post, mid.(input := mid.input[1..]), after.notices);
  }

  /** A prompt that is not asked when its turn comes leaves its key out of the answers. */
  lemma {:induction false} NotAskedLeavesNoKey(o: Oracles, ps: seq<PromptSpec>, n: nat, st: LState)
    requires UniqueKeys(ps) && n < |ps|
    requires ps[n].key.Some? && ps[n].key.value !in st.config
    requires !Asks(ps[n].dependsOn, Run(o, ps[..n], st).config)
    ensures ps[n].key.value !in Run(o, ps, st).config
    decreases n
  {
    Prompter.UniqueKeyNotElsewhere(ps, n);
    Prompter.KeysOfCons(ps);
    if n == 0 {
      assert ps[..0] == [];
    } else {
      Prompter.SliceShift(ps, n);
      assert UniqueKeys(ps[1..]) by {
        forall i, j | 0 <= i < j < |ps[1..]| && ps[1..][i].key.Some? && ps[1..][j].key.Some?
          ensures ps[1..][i].key != ps[1..][j].key
        {
          assert ps[1..][i] == ps[i + 1] && ps[1..][j] == ps[j + 1];
        }
      }
      NotAskedLeavesNoKey(o, ps[1..], n - 1, Step(o, ps[0], st));
    }
  }

  /** A gate lacking a truthy `key` or a truthy `value` always skips its prompt, whatever was answered. */
  lemma MalformedGateLeavesNoKey(o: Oracles, ps: seq<PromptSpec>, n: nat, st: LState)
    requires UniqueKeys(ps) && n < |ps|
    requires ps[n].key.Some? && ps[n].key.value !in st.config
    requires ps[n].dependsOn.Some? && !GateWellFormed(ps[n].dependsOn.value)
    ensures ps[n].key.value !in Run(o, ps, st).config
  {
    NotAskedLeavesNoKey(o, ps, n, st);
  }

  /**
   * In a definition with unique keys, a prompt that is asked at its turn, gets a
   * line and shapes it without raising stores that value under its key, and no
   * later prompt replaces it: it is the key's value in the final answers.
   */
  lemma AskedAnswerIsFinal(o: Oracles, ps: seq<PromptSpec>, n: nat, st: LState)
    requires UniqueKeys(ps) && n < |ps| && ps[n].key.Some? && ps[n].text.Some?
    ensures var mid := Run(o, ps[..n], st);
      Asks(ps[n].dependsOn, mid.config) && |mid.input| > 0 && Shaped(o, ps[n], mid.config, mid.input[0]).Some? ==>
        && ps[n].key.value in Run(o, ps, st).config
        && Run(o, ps, st).config[ps[n].key.value] == Shaped(o, ps[n], mid.config, mid.input[0]).value
  {
    var mid := Run(o, ps[..n], st);
    assert ps == ps[..n] + ps[n..];
    RunAppend(o, ps[..n], ps[n..], st);
    var tail := ps[n..];
    assert tail[0] == ps[n] && tail[1..] == ps[n + 1..];
    assert Run(o, tail, mid) == Run(o, ps[n + 1..], Step(o, ps[n], mid));
    Prompter.UniqueKeyNotElsewhere(ps, n);
  }

  /**
   * A definition of one ungated, non-list prompt, answered with a non-empty line,
   * gives just that line under the prompt's key and leaves the later lines unread.
   */
  lemma OnePromptAnswered(o: Oracles, p: PromptSpec, input: seq<string>)
    requires p.key.Some? && p.text.Some? && p.dependsOn.None? && !p.isList
    requires |input| > 0 && input[0] != ""
    ensures PromptForConfig(o, Prompter.OnePromptHeading(p), input).config == map[p.key.value := Str(input[0])]
    ensures PromptForConfig(o, Prompter.OnePromptHeading(p), input).input == input[1..]
  {
    var st := LState(map[], input, []);
    OnePromptRunsItsStep(o, p, st);
    PlainLineIsStored(o, p, map[], input[0]);
    assert Step(o, p, st).config == map[p.key.value := Str(input[0])];
  }

  /** A heading of one prompt runs just that prompt's step. */
  lemma OnePromptRunsItsStep(o: Oracles, p: PromptSpec, st: LState)
    requires st.config == map[] && st.notices == []
    ensures PromptForConfig(o, Prompter.OnePromptHeading(p), st.input) == Step(o, p, st)
  {
    var h := Prompter.OnePromptHeading(p);
    var secs := Sections(h);
    assert secs == [Section(None, None, [p])] && secs[1..] == [];
    assert st == LState(map[], st.input, []);
    assert PromptForConfig(o, h, st.input) == RunSections(o, secs, st);
    var after := Run(o, secs[0].prompts, st);
    assert RunSections(o, secs, st) == RunSections(o, [], after);
    RunOfOne(o, p, st);
  }

  /** The loop over a single prompt is that prompt's step. */
  lemma RunOfOne(o: Oracles, p: PromptSpec, st: LState)
    ensures Run(o, [p], st) == Step(o, p, st)
  {
    var ps := [p];
    assert ps[0] == p && ps[1..] == [];
    assert Run(o, ps, st) == Run(o, [], Step(o, p, st));
  }

  /** A non-empty line answering a non-list prompt is stored as typed. */
  lemma PlainLineIsStored(o: Oracles, p: PromptSpec, config: Config, line: string)
    requires !p.isList && line != ""
    ensures Shaped(o, p, config, line) == Some(Str(line))
  {
  }

  /** A definition with the one required prompt `name`, answered `db1`, gives `{"name": "db1"}` and reads that line. */
  lemma NameAnsweredExample(o: Oracles)
    ensures PromptForConfig(o, Prompter.OnePromptHeading(Prompter.NamePrompt), ["db1"]).config == map["name" := Str("db1")]
    ensures PromptForConfig(o, Prompter.OnePromptHeading(Prompter.NamePrompt), ["db1"]).input == []
  {
    assert Prompter.NamePrompt.key.value == "name";
    assert ["db1"][1..] == [];
    OnePromptAnswered(o, Prompter.NamePrompt, ["db1"]);
  }

  /** What reading a definition file gives: the file is missing, does not parse, or parses to a document (`None` for the null document). */
  datatype YamlRead = FileMissing | Unparsable | Parsed(doc: Option<DefDoc>)

  /** `load_prompts_from_yaml`: a missing or unparsable file gives `{}`, which is falsy; otherwise whatever parsed. */
  function LoadPromptsFromYaml(read: YamlRead): (r: Option<DefDoc>)
    ensures read.Parsed? ==> r == read.doc
    ensures !read.Parsed? ==> r == Some(DefDoc(NoHeading, false)) && !DocTruthy(r)
  {
    if read.Parsed? then read.doc else Some(DefDoc(NoHeading, false))
  }

  /** Sections one after another, prompts in order within each. */
  function RunSections(o: Oracles, sections: seq<Section>, st: LState): LState
    decreases |sections|
  {
    if |sections| == 0 then st
    else RunSections(o, sections[1..], Run(o, sections[0].prompts, st))
  }

  /** Walking the sections is walking their prompts in document order. */
  lemma {:induction false} SectionsInDocumentOrder(o: Oracles, sections: seq<Section>, st: LState)
    ensures RunSections(o, sections, st) == Run(o, Flatten(sections), st)
    decreases |sections|
  {
    if |sections| > 0 {
      RunAppend(o, sections[0].prompts, Flatten(sections[1..]), st);
      SectionsInDocumentOrder(o, sections[1..], Run(o, sections[0].prompts, st));
    }
  }

  /** `prompt_for_config(heading)`: an empty heading gives `{}` and reads nothing. */
  function PromptForConfig(o: Oracles, h: Heading, input: seq<string>): (r: LState)
    ensures !HeadingTruthy(h) ==> r == LState(map[], input, [])
    ensures r.config.Keys <= KeysOf(Flatten(Sections(h)))
    ensures |r.input| <= |input| && r.input == input[|input| - |r.input|..]
  {
    if !HeadingTruthy(h) then LState(map[], input, [])
    else
      SectionsInDocumentOrder(o, Sections(h), LState(map[], input, []));
      RunSections(o, Sections(h), LState(map[], input, []))
  }
}

=== FILE: prompter.dfy ===
/**
 * The current prompt engine (`utils/prompter.py`): global defaults take
 * precedence over definition defaults, defaults are rendered against the
 * answers so far, a required/regex re-prompt loop, comma-list shaping, and
 * a `depends_on` gate that compares `config.get(dep.get("key"))` with
 * `dep.get("value")`. Errors (a missing `key` or `prompt`, the end of the
 * input) propagate to the caller.
 */
module Prompter {
  import opened Wrappers
  import opened Values
  import opened Text
  import opened Definition
  import opened Interaction

  /** `_render_val`: strings holding `{{` are rendered against `ctx`; a rendering that raises keeps the raw string. */
  function RenderVal(o: Oracles, v: Value, ctx: Config): (r: Value)
    ensures !v.Str? ==> r == v
    ensures v.Str? ==> r.Str?
    ensures v.Str? && !HasMarker(v.s) ==> r == v
    ensures v.Str? && HasMarker(v.s) && o.render(v.s, ctx).None? ==> r == v
    ensures v.Str? && HasMarker(v.s) && o.render(v.s, ctx).Some? ==> r == Str(o.render(v.s, ctx).value)
  {
    if v.Str? && ContainsMarker(v.s) then
      match o.render(v.s, ctx)
      case Some(t) => Str(t)
      case None => v
    else v
  }

  /** `defaults.get(key, p.get("default"))`: a global default for the key wins over the prompt's own. */
  function EffectiveDefault(p: PromptSpec, k: string, defaults: Config): Value {
    if k in defaults then defaults[k] else p.default
  }

  /** The checks of the re-prompt loop: a required answer is truthy, a truthy answer matches a set regex. */
  predicate Accepts(o: Oracles, p: PromptSpec, v: Value) {
    && !(p.required && !Truthy(v))
    && !(p.regex != "" && Truthy(v) && !o.matches(p.regex, Display(o, v)))
  }

  /** The answer the loop accepted, and how many lines it read to get there. */
  datatype Accepted = Accepted(raw: Value, used: nat)

  /**
   * The `while True` loop: ask, re-ask on a failed check. The accepted answer
   * is the first line whose answer passes; every earlier line failed.
   */
  function AskUntilValid(o: Oracles, p: PromptSpec, d: Value, input: seq<string>): (r: Result<Accepted, Raised>)
    ensures r.Success? ==>
      && 1 <= r.value.used <= |input|
      && r.value.raw == Ask(d, input[r.value.used - 1])
      && Accepts(o, p, r.value.raw)
      && forall j :: 0 <= j < r.value.used - 1 ==> !Accepts(o, p, Ask(d, input[j]))
    ensures r.Failure? ==>
      && r.error == EndOfInput
      && forall j :: 0 <= j < |input| ==> !Accepts(o, p, Ask(d, input[j]))
    decreases |input|
  {
    if |input| == 0 then Failure(EndOfInput)
    else
      var v := Ask(d, input[0]);
      if Accepts(o, p, v) then Success(Accepted(v, 1))
      else
        match AskUntilValid(o, p, d, input[1..])
        case Success(a) => Success(Accepted(a.raw, a.used + 1))
        case Failure(e) => Failure(e)
  }

  /** List shaping: a list prompt's string answer becomes its comma-separated items; anything else is kept. */
  function Shape(p: PromptSpec, v: Value): Value {
    if p.isList && v.Str? then StrList(CommaList(v.s)) else v
  }

  /** The answer `_get_input` returns: the shaped `value`, the accepted `raw` answer, the lines read. */
  datatype Answer = Answer(value: Value, raw: Value, used: nat)

  /** `_get_input`. */
  function GetInput(o: Oracles, p: PromptSpec, ctx: Config, defaults: Config, input: seq<string>): (r: Result<Answer, Raised>)
    ensures p.key.None? ==> r == Failure(MissingEntry("key"))
    ensures p.key.Some? && p.text.None? ==> r == Failure(MissingEntry("prompt"))
    ensures r.Failure? && p.key.Some? && p.text.Some? ==> r.error == EndOfInput
    ensures r.Success? ==> 1 <= r.value.used <= |input|
    ensures r.Success? && p.required ==> Truthy(r.value.raw)
    ensures r.Success? && p.regex != "" && Truthy(r.value.raw) ==> o.matches(p.regex, Display(o, r.value.raw))
    ensures r.Success? && p.isList && r.value.raw.Str? ==> r.value.value == StrList(CommaList(r.value.raw.s))
    ensures r.Success? && !(p.isList && r.value.raw.Str?) ==> r.value.value == r.value.raw
  {
    if p.key.None? then Failure(MissingEntry("key"))
    else
      var d := RenderVal(o, EffectiveDefault(p, p.key.value, defaults), ctx);
      if p.text.None? then Failure(MissingEntry("prompt"))
      else
        match AskUntilValid(o, p, d, input)
        case Failure(e) => Failure(e)
        case Success(a) => Success(Answer(Shape(p, a.raw), a.raw, a.used))
  }

  /** With a global default for the key, the prompt's own `default` plays no part. */
  lemma GlobalDefaultWins(o: Oracles, p: PromptSpec, other: Value, ctx: Config, defaults: Config, input: seq<string>)
    requires p.key.Some? && p.key.value in defaults
    ensures GetInput(o, p, ctx, defaults, input) == GetInput(o, p.(default := other), ctx, defaults, input)
  {
    var q := p.(default := other);
    assert EffectiveDefault(p, p.key.value, defaults) == EffectiveDefault(q, p.key.value, defaults);
    assert forall v :: Accepts(o, p, v) == Accepts(o, q, v);
    AskUntilValidRespectsChecks(o, p, q, RenderVal(o, EffectiveDefault(p, p.key.value, defaults), ctx), input);
  }

  /** Without a global default for the key, the global defaults play no part. */
  lemma DefinitionDefaultOtherwise(o: Oracles, p: PromptSpec, ctx: Config, defaults: Config, input: seq<string>)
    requires p.key.Some? && p.key.value !in defaults
    ensures GetInput(o, p, ctx, defaults, input) == GetInput(o, p, ctx, map[], input)
  {
  }

  /** An empty line takes the effective default: the global one when set, else the prompt's, rendered. */
  lemma EmptyLineTakesDefault(o: Oracles, p: PromptSpec, ctx: Config, defaults: Config, input: seq<string>)
    requires p.key.Some? && p.text.Some?
    requires |input| > 0 && input[0] == ""
    requires Accepts(o, p, RenderVal(o, if p.key.value in defaults then defaults[p.key.value] else p.default, ctx))
    ensures GetInput(o, p, ctx, defaults, input).Success?
    ensures GetInput(o, p, ctx, defaults, input).value.raw
         == RenderVal(o, if p.key.value in defaults then defaults[p.key.value] else p.default, ctx)
    ensures GetInput(o, p, ctx, defaults, input).value.used == 1
  {
  }

  /** Two prompts with the same checks ask the same way. */
  lemma {:induction false} AskUntilValidRespectsChecks(o: Oracles, p: PromptSpec, q: PromptSpec, d: Value, input: seq<string>)
    requires forall v :: Accepts(o, p, v) == Accepts(o, q, v)
    ensures AskUntilValid(o, p, d, input) == AskUntilValid(o, q, d, input)
    decreases |input|
  {
    if |input| > 0 {
      AskUntilValidRespectsChecks(o, p, q, d, input[1..]);
    }
  }

  /** A first line that passes the checks is the answer, shaped, after one line. */
  lemma FirstLineAnswers(o: Oracles, p: PromptSpec, ctx: Config, defaults: Config, input: seq<string>)
    requires p.key.Some? && p.text.Some? && |input| > 0
    requires Accepts(o, p, Ask(RenderVal(o, EffectiveDefault(p, p.key.value, defaults), ctx), input[0]))
    ensures var raw := Ask(RenderVal(o, EffectiveDefault(p, p.key.value, defaults), ctx), input[0]);
      GetInput(o, p, ctx, defaults, input) == Success(Answer(Shape(p, raw), raw, 1))
  {
    var d := RenderVal(o, EffectiveDefault(p, p.key.value, defaults), ctx);
    assert AskUntilValid(o, p, d, input) == Success(Accepted(Ask(d, input[0]), 1));
  }

  /**
   * A required list prompt accepts a non-empty line whose comma list is empty
   * (such as `","`, see `Text.CommaListOfComma`) and yields the empty list:
   * the required check sees the raw line, not the shaped list.
   */
  lemma RequiredListCanBeEmpty(o: Oracles, p: PromptSpec, ctx: Config, defaults: Config, input: seq<string>)
    requires p.key.Some? && p.text.Some? && p.required && p.isList && p.regex == ""
    requires |input| > 0 && input[0] != "" && CommaList(input[0]) == []
    ensures GetInput(o, p, ctx, defaults, input) == Success(Answer(StrList([]), Str(input[0]), 1))
  {
    var d := RenderVal(o, EffectiveDefault(p, p.key.value, defaults), ctx);
    var raw := Str(input[0]);
    assert Ask(d, input[0]) == raw;
    assert Accepts(o, p, raw);
    FirstLineAnswers(o, p, ctx, defaults, input);
    assert Shape(p, raw) == StrList([]);
  }

  /** The accumulated answers and the lines not yet read. */
  datatype State = State(config: Config, input: seq<string>)

  /** `config.get(dep.get("key"))`: a missing gate key reads as `None`, like an unanswered one. */
  function GateAnswer(config: Config, key: Option<string>): Value {
    if key.Some? then Get(config, key.value) else Null
  }

  /** The prompt is asked unless a truthy `depends_on` has `config.get(key) != value`. */
  predicate GateOpen(g: Option<Gate>, config: Config) {
    g.None? || PyEq(GateAnswer(config, g.value.key), g.value.value)
  }

  /** `input` ends with `rest`. */
  predicate SuffixOf(rest: seq<string>, input: seq<string>) {
    |rest| <= |input| && rest == input[|input| - |rest|..]
  }

  /** One prompt of the loop in `prompt_for_config`. */
  function Step(o: Oracles, defaults: Config, p: PromptSpec, st: State): (r: Result<State, Raised>)
    ensures !GateOpen(p.dependsOn, st.config) ==> r == Success(st)
    ensures r.Failure? ==> GateOpen(p.dependsOn, st.config)
    ensures r.Success? && GateOpen(p.dependsOn, st.config) ==>
      && p.key.Some?
      && r.value.config.Keys == st.config.Keys + {p.key.value}
      && (forall k :: k in st.config && k != p.key.value ==> r.value.config[k] == st.config[k])
      && |r.value.input| < |st.input|
      && SuffixOf(r.value.input, st.input)
    ensures r.Success? ==> SuffixOf(r.value.input, st.input)
    ensures GateOpen(p.dependsOn, st.config) && GetInput(o, p, st.config, defaults, st.input).Failure? ==>
      r == Failure(GetInput(o, p, st.config, defaults, st.input).error)
    ensures GateOpen(p.dependsOn, st.config) && GetInput(o, p, st.config, defaults, st.input).Success? ==>
      && p.key.Some? && r.Success?
      && r.value.config == st.config[p.key.value := GetInput(o, p, st.config, defaults, st.input).value.value]
      && r.value.input == st.input[GetInput(o, p, st.config, defaults, st.input).value.used..]
  {
    if !GateOpen(p.dependsOn, st.config) then Success(st)
    else
      match GetInput(o, p, st.config, defaults, st.input)
      case Failure(e) => Failure(e)
      case Success(a) => Success(State(st.config[p.key.value := a.value], st.input[a.used..]))
  }

  /** Every prompt of `ps` in order, stopping at the first error. */
  function RunPrompts(o: Oracles, defaults: Config, ps: seq<PromptSpec>, st: State): (r: Result<State, Raised>)
    ensures r.Success? ==> r.value.config.Keys <= st.config.Keys + KeysOf(ps)
    ensures r.Success? ==> st.config.Keys <= r.value.config.Keys
    ensures r.Success? ==> forall k :: k in st.config && k !in KeysOf(ps) ==> r.value.config[k] == st.config[k]
    ensures r.Success? ==> SuffixOf(r.value.input, st.input)
    decreases |ps|
  {
    if |ps| == 0 then Success(st)
    else
      match Step(o, defaults, ps[0], st)
      case Failure(e) => Failure(e)
      case Success(next) =>
        KeysOfCons(ps);
        RunPrompts(o, defaults, ps[1..], next)
  }

  /** The keys of a non-empty prompt list are its head's key and the keys of its tail. */
  lemma KeysOfCons(ps: seq<PromptSpec>)
    requires |ps| > 0
    ensures KeysOf(ps) == KeysOf([ps[0]]) + KeysOf(ps[1..])
    ensures ps[0].key.Some? ==> KeysOf([ps[0]]) == {ps[0].key.value}
    ensures ps[0].key.None? ==> KeysOf([ps[0]]) == {}
  {
    forall k | k in KeysOf(ps) ensures k in KeysOf([ps[0]]) + KeysOf(ps[1..]) {
      var i :| 0 <= i < |ps| && ps[i].key.Some? && ps[i].key.value == k;
      if i > 0 {
        assert ps[1..][i - 1] == ps[i];
      } else {
        assert [ps[0]][0] == ps[0];
      }
    }
    forall k | k in KeysOf(ps[1..]) ensures k in KeysOf(ps) {
      var i :| 0 <= i < |ps[1..]| && ps[1..][i].key.Some? && ps[1..][i].key.value == k;
      assert ps[i + 1] == ps[1..][i];
    }
    forall k | k in KeysOf([ps[0]]) ensures k in KeysOf(ps) {
      assert ps[0] == [ps[0]][0];
    }
  }

  /** Continue a run with more prompts, unless it already stopped. */
  function Then(o: Oracles, defaults: Config, r: Result<State, Raised>, ps: seq<PromptSpec>): Result<State, Raised> {
    match r
    case Failure(e) => Failure(e)
    case Success(st) => RunPrompts(o, defaults, ps, st)
  }

  /**
   * The run is a left fold: the prompts of `a` are answered exactly as if `b`
   * did not exist, and `b` starts from what `a` left. So no default or gate
   * can see an answer that comes later.
   */
  lemma {:induction false} RunAppend(o: Oracles, defaults: Config, a: seq<PromptSpec>, b: seq<PromptSpec>, st: State)
    ensures RunPrompts(o, defaults, a + b, st) == Then(o, defaults, RunPrompts(o, defaults, a, st), b)
    decreases |a|
  {
    if |a| == 0 {
      assert a + b == b;
    } else {
      assert (a + b)[0] == a[0];
      assert (a + b)[1..] == a[1..] + b;
      match Step(o, defaults, a[0], st)
      case Failure(e) =>
      case Success(next) =>
        RunAppend(o, defaults, a[1..], b, next);
    }
  }

  /** Sections one after another, prompts in order within each. */
  function RunSections(o: Oracles, defaults: Config, sections: seq<Section>, st: State): Result<State, Raised>
    decreases |sections|
  {
    if |sections| == 0 then Success(st)
    else
      match RunPrompts(o, defaults, sections[0].prompts, st)
      case Failure(e) => Failure(e)
      case Success(next) => RunSections(o, defaults, sections[1..], next)
  }

  /** Walking the sections is walking their prompts in document order. */
  lemma {:induction false} SectionsInDocumentOrder(o: Oracles, defaults: Config, sections: seq<Section>, st: State)
    ensures RunSections(o, defaults, sections, st) == RunPrompts(o, defaults, Flatten(sections), st)
    decreases |sections|
  {
    if |sections| > 0 {
      RunAppend(o, defaults, sections[0].prompts, Flatten(sections[1..]), st);
      match RunPrompts(o, defaults, sections[0].prompts, st)
      case Failure(e) =>
      case Success(next) =>
        SectionsInDocumentOrder(o, defaults, sections[1..], next);
    }
  }

  /** `prompt_for_config(heading, global_defaults)`: the answers and the unread lines, or what was raised. */
  function PromptForConfig(o: Oracles, h: Heading, defaults: Config, input: seq<string>): (r: Result<State, Raised>)
    ensures r.Success? ==> r.value.config.Keys <= KeysOf(Flatten(Sections(h)))
    ensures r.Success? ==> SuffixOf(r.value.input, input)
  {
    SectionsInDocumentOrder(o, defaults, Sections(h), State(map[], input));
    RunSections(o, defaults, Sections(h), State(map[], input))
  }

  /**
   * In a definition with unique keys, a prompt whose gate is open when its turn
   * comes stores `_get_input`'s answer under its key, and no later prompt
   * replaces it: that answer is the key's value in the final answers.
   */
  lemma AskedAnswerIsFinal(o: Oracles, defaults: Config, ps: seq<PromptSpec>, n: nat, st: State)
    requires UniqueKeys(ps) && n < |ps| && ps[n].key.Some?
    requires RunPrompts(o, defaults, ps, st).Success?
    ensures RunPrompts(o, defaults, ps[..n], st).Success?
    ensures var mid := RunPrompts(o, defaults, ps[..n], st).value;
      GateOpen(ps[n].dependsOn, mid.config) ==>
        && GetInput(o, ps[n], mid.config, defaults, mid.input).Success?
        && ps[n].key.value in RunPrompts(o, defaults, ps, st).value.config
        && RunPrompts(o, defaults, ps, st).value.config[ps[n].key.value]
           == GetInput(o, ps[n], mid.config, defaults, mid.input).value.value
  {
    PrefixSucceeds(o, defaults, ps, n, st);
    var mid := RunPrompts(o, defaults, ps[..n], st).value;
    RunSplitsAt(o, defaults, ps, n, st);
    if GateOpen(ps[n].dependsOn, mid.config) {
      var next := Step(o, defaults, ps[n], mid);
      assert next.Success?;
      UniqueKeyNotElsewhere(ps, n);
      LaterPromptsKeepKey(o, defaults, ps[n + 1..], next.value, ps[n].key.value);
    }
  }

  /** Once the first `n` prompts got through, the run is the `n`-th prompt's step followed by the rest. */
  lemma RunSplitsAt(o: Oracles, defaults: Config, ps: seq<PromptSpec>, n: nat, st: State)
    requires n < |ps| && RunPrompts(o, defaults, ps[..n], st).Success?
    ensures RunPrompts(o, defaults, ps, st)
         == Then(o, defaults, Step(o, defaults, ps[n], RunPrompts(o, defaults, ps[..n], st).value), ps[n + 1..])
  {
    assert ps == ps[..n] + ps[n..];
    RunAppend(o, defaults, ps[..n], ps[n..], st);
    var tail := ps[n..];
    assert tail[0] == ps[n] && tail[1..] == ps[n + 1..];
  }

  /** Prompts that do not declare `k` leave an answer under `k` as it was. */
  lemma LaterPromptsKeepKey(o: Oracles, defaults: Config, ps: seq<PromptSpec>, st: State, k: string)
    requires k in st.config && k !in KeysOf(ps)
    requires RunPrompts(o, defaults, ps, st).Success?
    ensures k in RunPrompts(o, defaults, ps, st).value.config
    ensures RunPrompts(o, defaults, ps, st).value.config[k] == st.config[k]
  {
  }

  /** The prompt of the example below: a required `name`, no default, no checks beyond that. */
  const NamePrompt := PromptSpec(Some("name"), Some("Name"), Null, true, false, false, None, "", None)

  /** One section holding one prompt. */
  function OnePromptHeading(p: PromptSpec): Heading {
    Heading(None, Some([Section(None, None, [p])]), None, false)
  }

  /**
   * A definition of one ungated, non-list prompt without a regex, answered with a
   * non-empty line, gives just that line under the prompt's key and leaves the later lines unread.
   */
  lemma OnePromptAnswered(o: Oracles, p: PromptSpec, defaults: Config, input: seq<string>)
    requires p.key.Some? && p.text.Some? && p.dependsOn.None? && !p.isList && p.regex == ""
    requires |input| > 0 && input[0] != ""
    ensures PromptForConfig(o, OnePromptHeading(p), defaults, input) == Success(State(map[p.key.value := Str(input[0])], input[1..]))
  {
    OnePromptRunsItsStep(o, p, defaults, input);
    FirstLineAnswers(o, p, map[], defaults, input);
    assert GetInput(o, p, map[], defaults, input) == Success(Answer(Str(input[0]), Str(input[0]), 1));
  }

  /** A heading of one prompt runs just that prompt's step. */
  lemma OnePromptRunsItsStep(o: Oracles, p: PromptSpec, defaults: Config, input: seq<string>)
    ensures PromptForConfig(o, OnePromptHeading(p), defaults, input) == Step(o, defaults, p, State(map[], input))
  {
    var st := State(map[], input);
    var secs := Sections(OnePromptHeading(p));
    assert secs == [Section(None, None, [p])] && secs[1..] == [];
    assert [p][1..] == [];
    assert PromptForConfig(o, OnePromptHeading(p), defaults, input) == RunSections(o, defaults, secs, st);
    match Step(o, defaults, p, st)
    case Failure(e) =>
      assert RunPrompts(o, defaults, [p], st) == Failure(e);
      assert RunSections(o, defaults, secs, st) == Failure(e);
    case Success(next) =>
      assert RunPrompts(o, defaults, [p], st) == RunPrompts(o, defaults, [], next);
  }

  /** A definition with the one required prompt `name`, answered `db1`, gives `{"name": "db1"}` and reads that line. */
  lemma NameAnsweredExample(o: Oracles)
    ensures PromptForConfig(o, OnePromptHeading(NamePrompt), map[], ["db1"]) == Success(State(map["name" := Str("db1")], []))
  {
    assert NamePrompt.key.value == "name";
    assert ["db1"][1..] == [];
    OnePromptAnswered(o, NamePrompt, map[], ["db1"]);
  }

  /** A prompt whose gate is closed when its turn comes leaves its key out of the answers. */
  lemma {:induction false} SkippedPromptLeavesNoKey(o: Oracles, defaults: Config, ps: seq<PromptSpec>, n: nat, st: State)
    requires UniqueKeys(ps) && n < |ps|
    requires ps[n].key.Some? && ps[n].key.value !in st.config
    requires RunPrompts(o, defaults, ps[..n], st).Success?
    requires !GateOpen(ps[n].dependsOn, RunPrompts(o, defaults, ps[..n], st).value.config)
    requires RunPrompts(o, defaults, ps, st).Success?
    ensures ps[n].key.value !in RunPrompts(o, defaults, ps, st).value.config
    decreases n
  {
    var k := ps[n].key.value;
    UniqueKeyNotElsewhere(ps, n);
    KeysOfCons(ps);
    if n == 0 {
      assert ps[..0] == [];
      assert Step(o, defaults, ps[0], st) == Success(st);
    } else {
      var next := Step(o, defaults, ps[0], st).value;
      SliceShift(ps, n);
      assert k !in next.config;
      assert UniqueKeys(ps[1..]) by {
        forall i, j | 0 <= i < j < |ps[1..]| && ps[1..][i].key.Some? && ps[1..][j].key.Some?
          ensures ps[1..][i].key != ps[1..][j].key
        {
          assert ps[1..][i] == ps[i + 1] && ps[1..][j] == ps[j + 1];
        }
      }
      SkippedPromptLeavesNoKey(o, defaults, ps[1..], n - 1, next);
    }
  }

  /** A run that gets through all prompts gets through every prefix of them. */
  lemma {:induction false} PrefixSucceeds(o: Oracles, defaults: Config, ps: seq<PromptSpec>, n: nat, st: State)
    requires n <= |ps|
    requires RunPrompts(o, defaults, ps, st).Success?
    ensures RunPrompts(o, defaults, ps[..n], st).Success?
    decreases n
  {
    if n == 0 {
      assert ps[..0] == [];
    } else {
      SliceShift(ps, n);
      var next := Step(o, defaults, ps[0], st).value;
      PrefixSucceeds(o, defaults, ps[1..], n - 1, next);
    }
  }

  /** Dropping the head of a prefix is taking a prefix of the tail. */
  lemma SliceShift<T>(s: seq<T>, n: nat)
    requires 0 < n <= |s|
    ensures s[..n][0] == s[0] && s[..n][1..] == s[1..][..n - 1]
  {
  }

  /** A prompt whose gate is closed is passed over: the run goes on as if it were absent. */
  lemma ClosedGateSkips(o: Oracles, defaults: Config, p: PromptSpec, post: seq<PromptSpec>, st: State)
    requires !GateOpen(p.dependsOn, st.config)
    ensures RunPrompts(o, defaults, [p] + post, st) == RunPrompts(o, defaults, post, st)
  {
    assert ([p] + post)[0] == p;
    assert ([p] + post)[1..] == post;
  }

  /** In a definition with unique keys, no other prompt declares the key of the prompt at `n`. */
  lemma UniqueKeyNotElsewhere(ps: seq<PromptSpec>, n: nat)
    requires UniqueKeys(ps) && n < |ps|
    requires ps[n].key.Some?
    ensures ps[n].key.value !in KeysOf(ps[..n]) && ps[n].key.value !in KeysOf(ps[n + 1..])
  {
    forall k | k in KeysOf(ps[..n]) ensures k != ps[n].key.value {
      var i :| 0 <= i < n && ps[..n][i].key.Some? && ps[..n][i].key.value == k;
      assert ps[..n][i] == ps[i];
    }
    var post := ps[n + 1..];
    forall k | k in KeysOf(post) ensures k != ps[n].key.value {
      var i :| 0 <= i < |post| && post[i].key.Some? && post[i].key.value == k;
      assert post[i] == ps[n + 1 + i];
    }
  }

  /** A gate whose key no earlier prompt declares closes on any value but `None`: the prompt is skipped. */
  lemma UnansweredDependencySkips(o: Oracles, defaults: Config, ps: seq<PromptSpec>, n: nat, st: State)
    requires UniqueKeys(ps) && n < |ps|
    requires ps[n].key.Some? && ps[n].key.value !in st.config
    requires ps[n].dependsOn.Some? && ps[n].dependsOn.value.key.Some? && ps[n].dependsOn.value.value != Null
    requires ps[n].dependsOn.value.key.value !in st.config
    requires ps[n].dependsOn.value.key.value !in KeysOf(ps[..n])
    requires RunPrompts(o, defaults, ps, st).Success?
    ensures ps[n].key.value !in RunPrompts(o, defaults, ps, st).value.config
  {
    PrefixSucceeds(o, defaults, ps, n, st);
    var mid := RunPrompts(o, defaults, ps[..n], st).value;
    var g := ps[n].dependsOn.value;
    assert mid.config.Keys <= st.config.Keys + KeysOf(ps[..n]);
    assert g.key.value !in mid.config;
    assert GateAnswer(mid.config, g.key) == Null;
    NullEqualsOnlyNull(g.value);
    assert !GateOpen(ps[n].dependsOn, mid.config);
    SkippedPromptLeavesNoKey(o, defaults, ps, n, st);
  }

  /** A truthy gate with neither `key` nor `value` compares `None == None` and never skips. */
  lemma EmptyGateNeverSkips(config: Config)
    ensures GateOpen(Some(Gate(None, Null)), config)
  {
  }
}

=== FILE: text.dfy ===
/**
 * The string operations the wizard relies on, written out with Python's
 * meaning: `str.strip()`, `str.split(",")`, `sep.join(...)`, `"{{" in s`,
 * `str.lower()` (ASCII letters only) and the ordering `sorted` uses.
 */
module Text {

  /** Python's `str.isspace()` on one character: the characters `str.strip()` removes. */
  predicate IsSpace(c: char) {
    || c == ' ' || c == '\t' || c == '\n' || c == '\r'
    || c == '\U{000B}' || c == '\U{000C}'
    || ('\U{001C}' <= c <= '\U{001F}')
    || c == '\U{0085}' || c == '\U{00A0}' || c == '\U{1680}'
    || ('\U{2000}' <= c <= '\U{200A}')
    || c == '\U{2028}' || c == '\U{2029}' || c == '\U{202F}' || c == '\U{205F}' || c == '\U{3000}'
  }

  /** Neither end of `s` is whitespace. */
  predicate Stripped(s: string) {
    s == [] || (!IsSpace(s[0]) && !IsSpace(s[|s| - 1]))
  }

  /** `s.lstrip()`. */
  function TrimLeft(s: string): (r: string)
    ensures |r| <= |s| && r == s[|s| - |r|..]
    ensures forall k :: 0 <= k < |s| - |r| ==> IsSpace(s[k])
    ensures r == [] || !IsSpace(r[0])
  {
    if |s| > 0 && IsSpace(s[0]) then TrimLeft(s[1..]) else s
  }

  /** `s.rstrip()`. */
  function TrimRight(s: string): (r: string)
    ensures |r| <= |s| && r == s[..|r|]
    ensures forall k :: |r| <= k < |s| ==> IsSpace(s[k])
    ensures r == [] || !IsSpace(r[|r| - 1])
  {
    if |s| > 0 && IsSpace(s[|s| - 1]) then TrimRight(s[..|s| - 1]) else s
  }

  /** Trimming on the left adds no character. */
  lemma {:induction false} TrimLeftKeepsChars(s: string)
    ensures forall c :: c in TrimLeft(s) ==> c in s
    decreases |s|
  {
    if |s| > 0 && IsSpace(s[0]) {
      TrimLeftKeepsChars(s[1..]);
      assert forall c :: c in s[1..] ==> c in s;
    }
  }

  /** Trimming on the right adds no character. */
  lemma {:induction false} TrimRightKeepsChars(s: string)
    ensures forall c :: c in TrimRight(s) ==> c in s
    decreases |s|
  {
    if |s| > 0 && IsSpace(s[|s| - 1]) {
      TrimRightKeepsChars(s[..|s| - 1]);
      assert forall c :: c in s[..|s| - 1] ==> c in s;
    }
  }

  /** `s.strip()`: whitespace removed from both ends (`StripIsSlice` states which slice is left). */
  function Strip(s: string): (r: string)
    ensures Stripped(r)
    ensures |r| <= |s|
    ensures forall c :: c in r ==> c in s
    ensures Stripped(s) ==> r == s
  {
    var l := TrimLeft(s);
    var r := TrimRight(l);
    assert Stripped(r) by {
      if r != [] {
        assert r[0] == l[0];
      }
    }
    TrimLeftKeepsChars(s);
    TrimRightKeepsChars(l);
    r
  }

  /** `s.strip()` is the slice of `s` between a whitespace-only prefix and a whitespace-only suffix. */
  lemma StripIsSlice(s: string)
    ensures Stripped(Strip(s))
    ensures exists i, j | 0 <= i <= j <= |s| ::
              Strip(s) == s[i..j] && (forall k | 0 <= k < i :: IsSpace(s[k])) && (forall k | j <= k < |s| :: IsSpace(s[k]))
  {
    var l := TrimLeft(s);
    var r := TrimRight(l);
    assert r == Strip(s);
    var i := |s| - |l|;
    var j := i + |r|;
    assert r == s[i..j];
    assert forall k | j <= k < |s| :: IsSpace(s[k]) by {
      forall k | j <= k < |s| ensures IsSpace(s[k]) {
        assert s[k] == l[k - i];
      }
    }
  }

  /** `sep.join(parts)`. */
  function Join(parts: seq<string>, sep: string): string
    decreases |parts|
  {
    if |parts| == 0 then ""
    else if |parts| == 1 then parts[0]
    else parts[0] + sep + Join(parts[1..], sep)
  }

  /** `s.split(sep)` for a one-character separator: never empty, separator-free pieces that join back to `s`. */
  function Split(s: string, sep: char): (r: seq<string>)
    ensures |r| >= 1
    ensures forall i :: 0 <= i < |r| ==> sep !in r[i]
    ensures Join(r, [sep]) == s
    decreases |s|
  {
    if |s| == 0 then [""]
    else
      var t := Split(s[1..], sep);
      if s[0] == sep then
        assert Join([""] + t, [sep]) == "" + [sep] + Join(t, [sep]) by {
          assert ([""] + t)[1..] == t;
        }
        assert [sep] + s[1..] == s;
        [""] + t
      else
        var r := [[s[0]] + t[0]] + t[1..];
        assert Join(r, [sep]) == [s[0]] + Join(t, [sep]) by {
          if |t| > 1 {
            assert r[1..] == t[1..];
          }
        }
        assert [s[0]] + s[1..] == s;
        r
  }

  /** Splitting a separator-free prefix followed by more text glues the prefix onto the first piece. */
  lemma {:induction false} SplitPrefix(p: string, rest: string, sep: char)
    requires sep !in p
    ensures Split(p + rest, sep) == [p + Split(rest, sep)[0]] + Split(rest, sep)[1..]
    decreases |p|
  {
    if |p| > 0 {
      assert (p + rest)[1..] == p[1..] + rest;
      assert sep !in p[1..] by {
        assert forall k :: 0 <= k < |p[1..]| ==> p[1..][k] == p[k + 1];
      }
      SplitPrefix(p[1..], rest, sep);
      assert [p[0]] + (p[1..] + Split(rest, sep)[0]) == p + Split(rest, sep)[0];
    } else {
      var t := Split(rest, sep);
      assert p + rest == rest;
      assert p + t[0] == t[0];
      assert [t[0]] + t[1..] == t;
    }
  }

  /** Splitting undoes joining when no piece holds the separator. */
  lemma {:induction false} SplitJoin(parts: seq<string>, sep: char)
    requires |parts| >= 1
    requires forall i :: 0 <= i < |parts| ==> sep !in parts[i]
    ensures Split(Join(parts, [sep]), sep) == parts
    decreases |parts|
  {
    if |parts| == 1 {
      SplitPrefix(parts[0], "", sep);
      assert parts[0] + "" == parts[0];
    } else {
      var j := Join(parts[1..], [sep]);
      SplitJoin(parts[1..], sep);
      assert parts[0] + [sep] + j == parts[0] + ([sep] + j);
      SplitPrefix(parts[0], [sep] + j, sep);
      assert ([sep] + j)[1..] == j;
      assert Split([sep] + j, sep) == [""] + parts[1..];
      assert parts[0] + "" == parts[0];
    }
  }

  /** No string of `xs` holds the character `c`. */
  predicate NoneContain(xs: seq<string>, c: char) {
    forall j :: 0 <= j < |xs| ==> c !in xs[j]
  }

  /** The non-empty stripped pieces, in order: `[x.strip() for x in pieces if x.strip()]`. */
  function KeepNonEmpty(pieces: seq<string>): (r: seq<string>)
    ensures |r| <= |pieces|
    ensures forall i :: 0 <= i < |r| ==> r[i] != "" && Stripped(r[i])
  {
    if |pieces| == 0 then []
    else
      var rest := KeepNonEmpty(pieces[1..]);
      var x := Strip(pieces[0]);
      if x != "" then [x] + rest else rest
  }

  /** A character absent from every piece is absent from every kept piece. */
  lemma {:induction false} KeepNonEmptyAvoids(pieces: seq<string>, c: char)
    requires NoneContain(pieces, c)
    ensures NoneContain(KeepNonEmpty(pieces), c)
  {
    if |pieces| > 0 {
      assert NoneContain(pieces[1..], c) by {
        assert forall j :: 0 <= j < |pieces[1..]| ==> pieces[1..][j] == pieces[j + 1];
      }
      KeepNonEmptyAvoids(pieces[1..], c);
      assert c !in pieces[0];
    }
  }

  /** The comma-list shaping of an answer: the comma-separated pieces, stripped, empty ones dropped. */
  function CommaList(s: string): (r: seq<string>)
    ensures forall i :: 0 <= i < |r| ==> r[i] != "" && Stripped(r[i]) && ',' !in r[i]
  {
    var pieces := Split(s, ',');
    KeepNonEmptyAvoids(pieces, ',');
    KeepNonEmpty(pieces)
  }

  /** An empty answer shapes to the empty list. */
  lemma CommaListOfEmpty()
    ensures CommaList("") == []
  {
    assert Split("", ',') == [""];
    assert Strip("") == "";
    assert KeepNonEmpty([""][1..]) == [];
  }

  /** Pieces that are already non-empty and stripped pass through `KeepNonEmpty` unchanged. */
  lemma {:induction false} KeepNonEmptyIdentity(items: seq<string>)
    requires forall i :: 0 <= i < |items| ==> items[i] != "" && Stripped(items[i])
    ensures KeepNonEmpty(items) == items
  {
    if |items| > 0 {
      KeepNonEmptyIdentity(items[1..]);
      assert [items[0]] + items[1..] == items;
    }
  }

  /** Round trip: comma-joining clean items and shaping the result gives the items back. */
  lemma CommaListJoin(items: seq<string>)
    requires forall i :: 0 <= i < |items| ==> items[i] != "" && Stripped(items[i]) && ',' !in items[i]
    ensures CommaList(Join(items, ",")) == items
  {
    if |items| == 0 {
      assert Split("", ',') == [""];
    } else {
      SplitJoin(items, ',');
      KeepNonEmptyIdentity(items);
    }
  }

  /** Joining two non-empty runs of pieces puts one separator between their joins. */
  lemma {:induction false} JoinAppend(u: seq<string>, v: seq<string>, sep: string)
    requires |u| >= 1 && |v| >= 1
    ensures Join(u + v, sep) == Join(u, sep) + sep + Join(v, sep)
    decreases |u|
  {
    assert (u + v)[0] == u[0];
    assert (u + v)[1..] == u[1..] + v;
    if |u| > 1 {
      JoinAppend(u[1..], v, sep);
      assert u[0] + sep + (Join(u[1..], sep) + sep + Join(v, sep))
          == (u[0] + sep + Join(u[1..], sep)) + sep + Join(v, sep);
    } else {
      assert u[1..] + v == v;
    }
  }

  /** Splitting at one separator splits the two sides independently: `(a + "," + b).split(",")` is `a.split(",") + b.split(",")`. */
  lemma SplitAround(a: string, b: string, sep: char)
    ensures Split(a + [sep] + b, sep) == Split(a, sep) + Split(b, sep)
  {
    var u, v := Split(a, sep), Split(b, sep);
    JoinAppend(u, v, [sep]);
    assert Join(u + v, [sep]) == a + [sep] + b;
    assert forall i :: 0 <= i < |u + v| ==> sep !in (u + v)[i] by {
      forall i | 0 <= i < |u + v| ensures sep !in (u + v)[i] {
        if i < |u| {
          assert (u + v)[i] == u[i];
        } else {
          assert (u + v)[i] == v[i - |u|];
        }
      }
    }
    SplitJoin(u + v, sep);
  }

  /** Keeping the non-empty stripped pieces of two runs of pieces keeps those of each run, in order. */
  lemma {:induction false} KeepNonEmptyAppend(p: seq<string>, q: seq<string>)
    ensures KeepNonEmpty(p + q) == KeepNonEmpty(p) + KeepNonEmpty(q)
    decreases |p|
  {
    if |p| == 0 {
      assert p + q == q;
    } else {
      assert (p + q)[0] == p[0];
      assert (p + q)[1..] == p[1..] + q;
      KeepNonEmptyAppend(p[1..], q);
    }
  }

  /** The shaping of a comma-joined answer is the shaping of each side, in order: items come from the input and keep its order. */
  lemma CommaListAround(a: string, b: string)
    ensures CommaList(a + "," + b) == CommaList(a) + CommaList(b)
  {
    SplitAround(a, b, ',');
    KeepNonEmptyAppend(Split(a, ','), Split(b, ','));
  }

  /** A lone comma shapes to nothing: both pieces around it are blank. */
  lemma CommaListOfComma(s: string)
    requires s == ","
    ensures CommaList(s) == []
  {
    var e := s[..0];
    assert s == e + [','] + e;
    CommaListAround(e, e);
    CommaListOfEmpty();
  }

  /** An answer without a comma shapes to its stripped self, or to nothing when it is blank. */
  lemma CommaListOfPiece(x: string)
    requires ',' !in x
    ensures CommaList(x) == if Strip(x) == "" then [] else [Strip(x)]
  {
    SplitJoin([x], ',');
    assert Join([x], [',']) == x;
    assert [x][1..] == [];
  }

  /** Python's `"{{" in s`. */
  ghost predicate HasMarker(s: string) {
    exists i :: 0 <= i < |s| - 1 && s[i] == '{' && s[i + 1] == '{'
  }

  /** Scans `s` for two consecutive opening braces. */
  function ContainsMarker(s: string): (b: bool)
    ensures b <==> HasMarker(s)
    decreases |s|
  {
    if |s| < 2 then false
    else if s[0] == '{' && s[1] == '{' then true
    else
      var b := ContainsMarker(s[1..]);
      assert b ==> HasMarker(s) by {
        if b {
          var i :| 0 <= i < |s[1..]| - 1 && s[1..][i] == '{' && s[1..][i + 1] == '{';
          assert s[i + 1] == '{' && s[i + 2] == '{';
        }
      }
      assert HasMarker(s) ==> b by {
        if HasMarker(s) {
          var i :| 0 <= i < |s| - 1 && s[i] == '{' && s[i + 1] == '{';
          assert i > 0;
          assert s[1..][i - 1] == '{' && s[1..][i] == '{';
        }
      }
      b
  }

  /** `c.lower()` for ASCII letters; other characters are left alone. */
  function LowerChar(c: char): char {
    if 'A' <= c <= 'Z' then (c as int + 32) as char else c
  }

  /** `s.lower()` restricted to ASCII letters. */
  function Lower(s: string): (r: string)
    ensures |r| == |s|
    ensures forall i :: 0 <= i < |s| ==> r[i] == LowerChar(s[i])
    decreases |s|
  {
    if |s| == 0 then "" else [LowerChar(s[0])] + Lower(s[1..])
  }

  /** Lower-casing twice is lower-casing once. */
  lemma LowerIdempotent(s: string)
    ensures Lower(Lower(s)) == Lower(s)
  {
    assert forall i :: 0 <= i < |s| ==> Lower(Lower(s))[i] == Lower(s)[i];
  }

  /** A key holding an upper-case letter is never the lower-cased form of any name. */
  lemma NoNameLowersTo(k: string, name: string)
    requires Lower(k) != k
    ensures Lower(name) != k
  {
    if Lower(name) == k {
      LowerIdempotent(name);
    }
  }

  /** Python's `a < b` on strings: lexicographic by code point, a proper prefix first. */
  predicate Less(a: string, b: string)
    decreases |a|
  {
    if |a| == 0 then |b| > 0
    else if |b| == 0 then false
    else if a[0] != b[0] then a[0] < b[0]
    else Less(a[1..], b[1..])
  }

  predicate LessEq(a: string, b: string) {
    a == b || Less(a, b)
  }

  /** Any two strings are equal or ordered one way. */
  lemma {:induction false} LessTotal(a: string, b: string)
    ensures Less(a, b) || a == b || Less(b, a)
    decreases |a|
  {
    if |a| > 0 && |b| > 0 && a[0] == b[0] {
      LessTotal(a[1..], b[1..]);
      if a[1..] == b[1..] {
        assert a == [a[0]] + a[1..] && b == [b[0]] + b[1..];
      }
    }
  }

  /** No string is ordered both ways against another. */
  lemma {:induction false} LessAsymmetric(a: string, b: string)
    ensures !(Less(a, b) && Less(b, a))
    decreases |a|
  {
    if |a| > 0 && |b| > 0 && a[0] == b[0] {
      LessAsymmetric(a[1..], b[1..]);
    }
  }

  /** Adjacent elements are in non-decreasing order, as `sorted` leaves them. */
  predicate Sorted(s: seq<string>) {
    forall i :: 0 < i < |s| ==> LessEq(s[i - 1], s[i])
  }

  /** Inserts `x` into a sorted sequence at its place. */
  function Insert(x: string, s: seq<string>): (r: seq<string>)
    requires Sorted(s)
    ensures Sorted(r)
    ensures multiset(r) == multiset(s) + multiset{x}
    ensures |r| == |s| + 1
    ensures |s| > 0 ==> r[0] == x || r[0] == s[0]
  {
    if |s| == 0 then [x]
    else if LessEq(x, s[0]) then [x] + s
    else
      LessTotal(x, s[0]);
      var t := Insert(x, s[1..]);
      assert s == [s[0]] + s[1..];
      [s[0]] + t
  }

  /** `sorted(s)`: the elements of `s`, in order. */
  function Sort(s: seq<string>): (r: seq<string>)
    ensures Sorted(r)
    ensures multiset(r) == multiset(s)
  {
    if |s| == 0 then []
    else
      assert s == [s[0]] + s[1..];
      Insert(s[0], Sort(s[1..]))
  }

  /** Stripping the pieces of the worked example: plain pieces are left alone. */
  lemma StripOfPlainItems()
    ensures Strip("a") == "a" && Strip("") == ""
  {
  }
  /** A piece with a space at each end loses both. */
  lemma StripOfSpacedItem()
    ensures Strip(" b ") == "b"
  {
    TrimLeftOfSpacedItem();
    TrimRightOfTrailingSpace();
  }

  lemma TrimLeftOfSpacedItem()
    ensures TrimLeft(" b ") == "b "
  {
    assert " b "[1..] == "b ";
    assert !IsSpace('b');
  }

  lemma TrimRightOfTrailingSpace()
    ensures TrimRight("b ") == "b"
  {
    assert "b "[..1] == "b";
    assert !IsSpace('b');
  }

  /** A piece with a leading space loses it. */
  lemma StripOfLeadingSpace()
    ensures Strip(" c") == "c"
  {
    TrimLeftOfLeadingSpace();
    assert TrimRight("c") == "c";
  }

  lemma TrimLeftOfLeadingSpace()
    ensures TrimLeft(" c") == "c"
  {
    assert " c"[1..] == "c";
    assert !IsSpace('c');
  }

  /** All four pieces of the worked example, stripped. */
  lemma StripOfExamplePieces()
    ensures Strip("a") == "a" && Strip("") == "" && Strip(" b ") == "b" && Strip(" c") == "c"
  {
    StripOfPlainItems();
    StripOfSpacedItem();
    StripOfLeadingSpace();
  }

  /** `"a, b ,, c".split(",")` is `["a", " b ", "", " c"]`. */
  lemma SplitExample(s: string)
    requires s == "a, b ,, c"
    ensures var r := Split(s, ',');
      |r| == 4 && r[0] == "a" && r[1] == " b " && r[2] == "" && r[3] == " c"
  {
    var a, b, e, c := "a", " b ", "", " c";
    var pieces := [a, b, e, c];
    assert Join(pieces[3..], [',']) == c;
    assert Join(pieces[2..], [',']) == e + [','] + c;
    assert Join(pieces[1..], [',']) == b + [','] + (e + [','] + c);
    assert Join(pieces, [',']) == a + [','] + (b + [','] + (e + [','] + c));
    assert a + [','] + (b + [','] + (e + [','] + c)) == s;
    SplitJoin(pieces, ',');
  }

  /** The stages of keeping the non-empty stripped pieces of that split, from the back. */
  lemma KeepExampleTail(p: seq<string>)
    requires |p| == 2 && p[0] == "" && p[1] == " c"
    ensures var k := KeepNonEmpty(p); |k| == 1 && k[0] == "c"
  {
    StripOfExamplePieces();
    assert p[1..][1..] == [];
  }

  lemma KeepExampleMiddle(p: seq<string>)
    requires |p| == 3 && p[0] == " b " && p[1] == "" && p[2] == " c"
    ensures var k := KeepNonEmpty(p); |k| == 2 && k[0] == "b" && k[1] == "c"
  {
    StripOfExamplePieces();
    KeepExampleTail(p[1..]);
  }

  lemma KeepExamplePieces(p: seq<string>)
    requires |p| == 4 && p[0] == "a" && p[1] == " b " && p[2] == "" && p[3] == " c"
    ensures var k := KeepNonEmpty(p); |k| == 3 && k[0] == "a" && k[1] == "b" && k[2] == "c"
  {
    StripOfExamplePieces();
    KeepExampleMiddle(p[1..]);
  }

  /** The worked example of list shaping: `"a, b ,, c"` gives `["a", "b", "c"]`. */
  lemma CommaListExample(s: string)
    requires s == "a, b ,, c"
    ensures var r := CommaList(s);
      |r| == 3 && r[0] == "a" && r[1] == "b" && r[2] == "c"
  {
    SplitExample(s);
    KeepExamplePieces(Split(s, ','));
  }
}

=== FILE: values.dfy ===
/**
 * The dynamically typed values that flow through the wizard: what a YAML
 * definition, a TOML defaults file or the user can supply for one answer,
 * together with Python's truthiness and equality on them.
 */
module Values {

  /** One Python value. `Instant` stands for the `datetime` object the legacy flow stores under `now`. */
  datatype Value =
    | Null
    | Bool(b: bool)
    | Int(i: int)
    | Str(s: string)
    | StrList(items: seq<string>)
    | Instant(stamp: string)

  /** The answers collected so far, keyed by prompt key. */
  type Config = map<string, Value>

  /** Python's `bool(v)`. */
  predicate Truthy(v: Value) {
    match v
    case Null => false
    case Bool(b) => b
    case Int(i) => i != 0
    case Str(s) => s != ""
    case StrList(xs) => xs != []
    case Instant(_) => true
  }

  /** The integer a number or a boolean compares as (`True == 1` in Python). */
  function NumberOf(v: Value): int
    requires v.Bool? || v.Int?
  {
    if v.Bool? then (if v.b then 1 else 0) else v.i
  }

  /** Python's `a == b` on two values. */
  predicate PyEq(a: Value, b: Value) {
    if (a.Bool? || a.Int?) && (b.Bool? || b.Int?) then NumberOf(a) == NumberOf(b)
    else a == b
  }

  /** `config.get(k)`: the stored value, or `None` for a missing key. */
  function Get(config: Config, k: string): (v: Value)
    ensures k !in config ==> v == Null
    ensures k in config ==> v == config[k]
  {
    if k in config then config[k] else Null
  }

  /** `None == x` holds exactly when `x` is `None`: a missing answer only equals a `None` gate value. */
  lemma NullEqualsOnlyNull(x: Value)
    ensures PyEq(Null, x) <==> x == Null
  {
  }
}

=== FILE: wizard.dfy ===
/**
 * The current configuration wizard (`core/engine/wizard.py`): find the
 * tool's definition, collect the answers, ask for the output path, add
 * the generation context, render the tool's template and save it,
 * asking before an existing file is overwritten.
 */
module Wizard {
  import opened Wrappers
  import opened Values
  import opened Text
  import opened Definition
  import opened Interaction
  import opened Paths
  import opened GlobalConfig
  import Prompter

  /** The files that exist, by path, with their contents. */
  type Files = map<string, string>

  /** A console message printed after a successful save; the `str.format` substitution is left to the reader. */
  datatype Message =
    | SuccessMessage(template: string, outputPath: string)
    | NoteMessage(template: string, context: Config)

  /**
   * What the wizard finds outside itself: where the definitions live and
   * what is there, the YAML loader, the global defaults document, the
   * formatted current time, which output paths name an existing directory,
   * and which output paths `open(..., "w")` accepts.
   */
  datatype Env = Env(
    definitionsPath: string,
    definitions: Option<Node>,
    load: string -> Option<DefDoc>,
    globalDoc: Option<GlobalDoc>,
    stamp: string,
    isDir: string -> bool,
    writable: string -> bool)

  /** How one run of the wizard ends. */
  datatype Outcome =
    | DefinitionNotFound
    | Crashed(error: Raised)
    | NothingCollected
    | OverwriteDeclined
    | Saved(output: string, context: Config, messages: seq<Message>)

  /** The outcome and the files afterwards. */
  datatype Finish = Finish(outcome: Outcome, files: Files)

  /** The outcome of `_save_config`: whether it wrote, the files afterwards, the unread lines. */
  datatype Saving = Saving(saved: bool, files: Files, input: seq<string>)

  /** The answer the overwrite question assumes on an empty line. */
  const OverwriteDefault := "n"

  /** The success message when the definition's `after.logs` has none. */
  const DefaultSuccess := "File saved."

  /** The keys the wizard adds to the answers before rendering. */
  const TimestampKey := "generation_timestamp"
  const OutputKey := "output_path"
  const PassphraseKey := "encryption_passphrase"
  const EncryptionKey := "encryption_arg"

  /** The one tool with post-processing, compared with the lower-cased tool name. */
  const Borgmatic := "borgmatic"

  /** The keys the wizard sets on top of the answers: `encryption_arg` only for borgmatic. */
  function WizardKeys(tool: string): set<string> {
    if Lower(tool) == Borgmatic then {TimestampKey, OutputKey, EncryptionKey} else {TimestampKey, OutputKey}
  }

  /**
   * The context is the answers with only `added` keys set on top: every other
   * answer reaches the template unchanged, and nothing else is there.
   */
  predicate CarriesAnswers(config: Config, ctx: Config, added: set<string>) {
    && ctx.Keys <= config.Keys + added
    && forall k :: k in config && k !in added ==> k in ctx && ctx[k] == config[k]
  }

  /** `os.path.exists(p)`: a file or a directory is there. */
  predicate Exists(files: Files, isDir: string -> bool, p: string) {
    p in files || isDir(p)
  }

  /**
   * `_save_config(p, content)`: whatever exists at `p` is replaced only when the
   * user answers `y`; a directory cannot be opened for writing.
   */
  function SaveConfig(files: Files, isDir: string -> bool, writable: string -> bool, p: string, content: string,
                      input: seq<string>): (r: Result<Saving, Raised>)
    ensures Exists(files, isDir, p) && |input| == 0 ==> r == Failure(EndOfInput)
    ensures r.Success? ==> (r.value.saved <==> !Exists(files, isDir, p) || AskText(OverwriteDefault, input[0]) == "y")
    ensures r.Success? && r.value.saved ==> !isDir(p) && writable(p) && r.value.files == files[p := content]
    ensures r.Success? && !r.value.saved ==> r.value.files == files
    ensures r.Success? ==> r.value.input == if Exists(files, isDir, p) then input[1..] else input
    ensures r.Failure? ==>
              || (r.error == EndOfInput && Exists(files, isDir, p) && |input| == 0)
              || (r.error == WriteFailed && (isDir(p) || !writable(p)))
    ensures Exists(files, isDir, p) && |input| > 0 && AskText(OverwriteDefault, input[0]) != "y" ==>
              r == Success(Saving(false, files, input[1..]))
    ensures !Exists(files, isDir, p) && writable(p) ==> r == Success(Saving(true, files[p := content], input))
    ensures Exists(files, isDir, p) && |input| > 0 && AskText(OverwriteDefault, input[0]) == "y" ==>
              r == if isDir(p) || !writable(p) then Failure(WriteFailed) else Success(Saving(true, files[p := content], input[1..]))
  {
    var there := Exists(files, isDir, p);
    if there && |input| == 0 then Failure(EndOfInput)
    else
      var rest := if there then input[1..] else input;
      if there && AskText(OverwriteDefault, input[0]) != "y" then Success(Saving(false, files, rest))
      else if isDir(p) || !writable(p) then Failure(WriteFailed)
      else Success(Saving(true, files[p := content], rest))
  }

  /**
   * A directory at the output path is asked about like a file: an empty or `n`
   * answer declines cleanly, and only a `y` goes on to the failing `open`.
   */
  lemma DirectoryAtOutputAsksFirst(files: Files, isDir: string -> bool, writable: string -> bool, p: string, content: string,
                                   input: seq<string>)
    requires isDir(p)
    ensures |input| == 0 ==> SaveConfig(files, isDir, writable, p, content, input) == Failure(EndOfInput)
    ensures |input| > 0 && AskText(OverwriteDefault, input[0]) != "y" ==>
      SaveConfig(files, isDir, writable, p, content, input) == Success(Saving(false, files, input[1..]))
    ensures |input| > 0 && AskText(OverwriteDefault, input[0]) == "y" ==>
      SaveConfig(files, isDir, writable, p, content, input) == Failure(WriteFailed)
  {
  }

  /** A saved file reads back as what was rendered, and no other file changes. */
  lemma SavedFileReadsBack(files: Files, isDir: string -> bool, writable: string -> bool, p: string, content: string,
                            input: seq<string>, q: string)
    requires SaveConfig(files, isDir, writable, p, content, input).Success?
    requires SaveConfig(files, isDir, writable, p, content, input).value.saved
    ensures SaveConfig(files, isDir, writable, p, content, input).value.files[p] == content
    ensures q != p ==> (q in files <==> q in SaveConfig(files, isDir, writable, p, content, input).value.files)
    ensures q != p && q in files ==> SaveConfig(files, isDir, writable, p, content, input).value.files[q] == files[q]
  {
  }

  /** The answers with the generation time and the output path added; nothing else changes. */
  function InjectContext(config: Config, stamp: string, output: string): (r: Config)
    ensures r.Keys == config.Keys + {TimestampKey, OutputKey}
    ensures r[TimestampKey] == Str(stamp) && r[OutputKey] == Str(output)
    ensures forall k :: k in config && k != TimestampKey && k != OutputKey ==> r[k] == config[k]
  {
    config[TimestampKey := Str(stamp)][OutputKey := Str(output)]
  }

  /** The `borg init` encryption flag: none for a falsy passphrase, the quoted passphrase otherwise. */
  function EncryptionArg(o: Oracles, passphrase: Value): (r: string)
    ensures r == "--encryption=none" <==> !Truthy(passphrase)
    ensures Truthy(passphrase) ==> (|r| == 15 + |Display(o, passphrase)|
      && r[..14] == "--encryption='" && r[14..|r| - 1] == Display(o, passphrase) && r[|r| - 1] == '\'')
  {
    if Truthy(passphrase) then
      var r := "--encryption='" + Display(o, passphrase) + "'";
      assert r[13] != "--encryption=none"[13];
      r
    else "--encryption=none"
  }

  /** Two passphrases give the same flag only when they display the same, or are both falsy. */
  lemma EncryptionArgInjective(o: Oracles, p: Value, q: Value)
    requires EncryptionArg(o, p) == EncryptionArg(o, q)
    ensures Truthy(p) <==> Truthy(q)
    ensures Truthy(p) ==> Display(o, p) == Display(o, q)
  {
  }

  /** The tool-specific step: only borgmatic gains `encryption_arg`, from the answer under `encryption_passphrase`. */
  function PostProcess(o: Oracles, tool: string, ctx: Config): (r: Config)
    ensures Lower(tool) != Borgmatic ==> r == ctx
    ensures Lower(tool) == Borgmatic ==> (r.Keys == ctx.Keys + {EncryptionKey}
      && r[EncryptionKey] == Str(EncryptionArg(o, Get(ctx, PassphraseKey)))
      && forall k :: k in ctx && k != EncryptionKey ==> r[k] == ctx[k])
  {
    if Lower(tool) == Borgmatic then ctx[EncryptionKey := Str(EncryptionArg(o, Get(ctx, PassphraseKey)))]
    else ctx
  }

  /** The template file rendered for a tool, looked up beside its definition. */
  function TemplateName(tool: string): string {
    Lower(tool) + ".yaml.j2"
  }

  /** One note message per `after.notes` entry, in order, each formatted against the full context. */
  function NoteMessages(notes: seq<string>, ctx: Config): seq<Message> {
    seq(|notes|, i requires 0 <= i < |notes| => NoteMessage(notes[i], ctx))
  }

  /** The messages printed after a save: the success line, then the notes. */
  function SavedMessages(after: After, output: string, ctx: Config): seq<Message> {
    [SuccessMessage(after.logs.success.GetOr(DefaultSuccess), output)] + NoteMessages(after.notes, ctx)
  }

  /** The answers, the output path asked for after them, and the context the template sees. */
  function Context(o: Oracles, env: Env, tool: string, config: Config, output: string): Config {
    PostProcess(o, tool, InjectContext(config, env.stamp, output))
  }

  /** What a saved run promises: the file holds the template rendered against the context, beside the definition. */
  ghost predicate SavedWell(o: Oracles, env: Env, tool: string, defPath: string, files: Files, r: Finish)
    requires r.outcome.Saved?
  {
    var out := r.outcome.output;
    && env.writable(out) && !env.isDir(out)
    && out in r.files
    && r.files == files[out := r.files[out]]
    && o.renderFile(Dirname(defPath), TemplateName(tool), r.outcome.context) == Some(r.files[out])
    && TimestampKey in r.outcome.context && r.outcome.context[TimestampKey] == Str(env.stamp)
    && OutputKey in r.outcome.context && r.outcome.context[OutputKey] == Str(out)
    && |r.outcome.messages| > 0
    && r.outcome.messages[0].SuccessMessage?
    && r.outcome.messages[0].outputPath == out
  }

  /** The output path can be written and, if something is already there, the next line consents to replacing it. */
  predicate SaveAllowed(files: Files, isDir: string -> bool, writable: string -> bool, out: string, lines: seq<string>) {
    && !isDir(out) && writable(out)
    && (!Exists(files, isDir, out) || (|lines| > 0 && AskText(OverwriteDefault, lines[0]) == "y"))
  }

  /** The part of the run after answers were collected: output path, context, rendering, saving. */
  function Deliver(o: Oracles, env: Env, tool: string, defaultFilename: string, defPath: string, after: After,
                   config: Config, lines: seq<string>, files: Files): (r: Finish)
    ensures r.outcome != DefinitionNotFound
    ensures !r.outcome.Saved? ==> r.files == files
    ensures |lines| == 0 ==> r == Finish(Crashed(EndOfInput), files)
    ensures r.outcome.Saved? ==> SavedWell(o, env, tool, defPath, files, r)
    ensures r.outcome.Saved? ==> (|lines| > 0 && r.outcome.output == AskText(defaultFilename, lines[0])
      && (!Exists(files, env.isDir, r.outcome.output) || (|lines| > 1 && AskText(OverwriteDefault, lines[1]) == "y")))
    ensures r.outcome.Saved? ==> (|r.outcome.messages| == 1 + |after.notes|
      && r.outcome.messages[0].template == after.logs.success.GetOr(DefaultSuccess)
      && forall i :: 0 <= i < |after.notes| ==> r.outcome.messages[i + 1] == NoteMessage(after.notes[i], r.outcome.context))
    ensures r.outcome.Saved? ==> CarriesAnswers(config, r.outcome.context, WizardKeys(tool))
    ensures |lines| > 0 && o.renderFile(Dirname(defPath), TemplateName(tool),
              Context(o, env, tool, config, AskText(defaultFilename, lines[0]))).None? ==>
              r == Finish(Crashed(TemplateFailed), files)
    ensures |lines| > 1 && o.renderFile(Dirname(defPath), TemplateName(tool),
              Context(o, env, tool, config, AskText(defaultFilename, lines[0]))).Some?
            && Exists(files, env.isDir, AskText(defaultFilename, lines[0])) && AskText(OverwriteDefault, lines[1]) != "y" ==>
              r == Finish(OverwriteDeclined, files)
    ensures |lines| > 0 && SaveAllowed(files, env.isDir, env.writable, AskText(defaultFilename, lines[0]), lines[1..])
            && o.renderFile(Dirname(defPath), TemplateName(tool), Context(o, env, tool, config, AskText(defaultFilename, lines[0]))).Some? ==>
              && r.outcome.Saved? && r.outcome.output == AskText(defaultFilename, lines[0])
              && r.outcome.context == Context(o, env, tool, config, AskText(defaultFilename, lines[0]))
              && r.files == files[AskText(defaultFilename, lines[0]) :=
                   o.renderFile(Dirname(defPath), TemplateName(tool), Context(o, env, tool, config, AskText(defaultFilename, lines[0]))).value]
  {
    if |lines| == 0 then Finish(Crashed(EndOfInput), files)
    else
      var output := AskText(defaultFilename, lines[0]);
      var ctx := Context(o, env, tool, config, output);
      match o.renderFile(Dirname(defPath), TemplateName(tool), ctx)
      case None => Finish(Crashed(TemplateFailed), files)
      case Some(text) =>
        match SaveConfig(files, env.isDir, env.writable, output, text, lines[1..])
        case Failure(e) => Finish(Crashed(e), files)
        case Success(s) =>
          if !s.saved then Finish(OverwriteDeclined, files)
          else Finish(Saved(output, ctx, SavedMessages(after, output, ctx)), s.files)
  }

  /** `run_config_flow(tool, default_filename)`. */
  function RunConfigFlow(o: Oracles, env: Env, tool: string, defaultFilename: string, files: Files, input: seq<string>): (r: Finish)
    ensures r.outcome == DefinitionNotFound <==> GetToolDefinitionPath(env.definitionsPath, env.definitions, tool).None?
    ensures !r.outcome.Saved? ==> r.files == files
    ensures r.outcome.Saved? ==> (GetToolDefinitionPath(env.definitionsPath, env.definitions, tool).Some?
      && SavedWell(o, env, tool, GetToolDefinitionPath(env.definitionsPath, env.definitions, tool).value, files, r))
    ensures r.outcome.Saved? ==> (GetToolDefinitionPath(env.definitionsPath, env.definitions, tool).Some?
      && var doc := env.load(GetToolDefinitionPath(env.definitionsPath, env.definitions, tool).value);
      && doc.Some? && !doc.value.heading.NullHeading?
      && Collect(o, env, tool, HeadingOf(doc.value), input).Success?
      && CarriesAnswers(Collect(o, env, tool, HeadingOf(doc.value), input).value.config, r.outcome.context, WizardKeys(tool)))
  {
    var defPath := GetToolDefinitionPath(env.definitionsPath, env.definitions, tool);
    if defPath.None? then Finish(DefinitionNotFound, files)
    else
      var doc := env.load(defPath.value);
      if doc.None? then Finish(Crashed(NullDocument), files)
      else if doc.value.heading.NullHeading? then Finish(Crashed(HeadingIsNull), files)
      else
        var heading := HeadingOf(doc.value);
        Conclude(o, env, tool, defaultFilename, defPath.value, AfterOf(heading), Collect(o, env, tool, heading, input), files)
  }

  /** `prompt_for_config(heading, global_defaults=get_tool_defaults(tool))`. */
  function Collect(o: Oracles, env: Env, tool: string, heading: Heading, input: seq<string>): Result<Prompter.State, Raised> {
    Prompter.PromptForConfig(o, heading, GetToolDefaults(env.globalDoc, tool), input)
  }

  /** The run after the prompts: stop on a raised error or on no answers, deliver otherwise. */
  function Conclude(o: Oracles, env: Env, tool: string, defaultFilename: string, defPath: string, after: After,
                    answers: Result<Prompter.State, Raised>, files: Files): (r: Finish)
    ensures r.outcome != DefinitionNotFound
    ensures answers.Failure? ==> r == Finish(Crashed(answers.error), files)
    ensures answers.Success? && answers.value.config == map[] ==> r == Finish(NothingCollected, files)
    ensures !r.outcome.Saved? ==> r.files == files
    ensures r.outcome.Saved? ==> SavedWell(o, env, tool, defPath, files, r)
    ensures r.outcome.Saved? ==> answers.Success? && CarriesAnswers(answers.value.config, r.outcome.context, WizardKeys(tool))
  {
    if answers.Failure? then Finish(Crashed(answers.error), files)
    else if answers.value.config == map[] then Finish(NothingCollected, files)
    else Deliver(o, env, tool, defaultFilename, defPath, after, answers.value.config, answers.value.input, files)
  }

  /**
   * The defaults the wizard passes to the prompts are the tool's global table:
   * a key set there decides the prompt's effective default, and any other key
   * falls back to the prompt's own `default`.
   */
  lemma ToolTableDecidesDefault(doc: GlobalDoc, tool: string, p: PromptSpec, k: string)
    ensures Lower(tool) in doc && k in doc[Lower(tool)] ==>
      Prompter.EffectiveDefault(p, k, GetToolDefaults(Some(doc), tool)) == doc[Lower(tool)][k]
    ensures !(Lower(tool) in doc && k in doc[Lower(tool)]) ==>
      Prompter.EffectiveDefault(p, k, GetToolDefaults(Some(doc), tool)) == p.default
  {
    DefaultsComeFromOwnTable(Some(doc), tool);
  }

  /** An empty answer map ends the run before the output path is asked, with nothing written. */
  lemma NoAnswersNoOutput(o: Oracles, env: Env, tool: string, defaultFilename: string, files: Files, input: seq<string>, st: Prompter.State)
    requires GetToolDefinitionPath(env.definitionsPath, env.definitions, tool).Some?
    requires env.load(GetToolDefinitionPath(env.definitionsPath, env.definitions, tool).value).Some?
    requires !env.load(GetToolDefinitionPath(env.definitionsPath, env.definitions, tool).value).value.heading.NullHeading?
    requires Prompter.PromptForConfig(o, HeadingOf(env.load(GetToolDefinitionPath(env.definitionsPath, env.definitions, tool).value).value),
      GetToolDefaults(env.globalDoc, tool), input) == Success(st)
    requires st.config == map[]
    ensures RunConfigFlow(o, env, tool, defaultFilename, files, input) == Finish(NothingCollected, files)
  {
  }

  /**
   * Once answers exist and the output path names an existing file or directory, nothing is
   * written unless the next line is `y`.
   */
  lemma ExistingOutputNeedsConsent(o: Oracles, env: Env, tool: string, defaultFilename: string, files: Files, input: seq<string>, st: Prompter.State)
    requires GetToolDefinitionPath(env.definitionsPath, env.definitions, tool).Some?
    requires env.load(GetToolDefinitionPath(env.definitionsPath, env.definitions, tool).value).Some?
    requires !env.load(GetToolDefinitionPath(env.definitionsPath, env.definitions, tool).value).value.heading.NullHeading?
    requires Prompter.PromptForConfig(o, HeadingOf(env.load(GetToolDefinitionPath(env.definitionsPath, env.definitions, tool).value).value),
      GetToolDefaults(env.globalDoc, tool), input) == Success(st)
    requires |st.input| > 0 && Exists(files, env.isDir, AskText(defaultFilename, st.input[0]))
    requires |st.input| == 1 || AskText(OverwriteDefault, st.input[1]) != "y"
    ensures !RunConfigFlow(o, env, tool, defaultFilename, files, input).outcome.Saved?
    ensures RunConfigFlow(o, env, tool, defaultFilename, files, input).files == files
  {
  }

  /**
   * End to end: a definition holding one plain prompt, answered with a non-empty line and then
   * with an output path that can be written (and a `y` when something is already there), saves
   * the template rendered against that answer there and changes no other file.
   */
  lemma OnePromptRunSaves(o: Oracles, env: Env, tool: string, defaultFilename: string, files: Files, input: seq<string>,
                          p: PromptSpec, hasOtherKeys: bool)
    requires GetToolDefinitionPath(env.definitionsPath, env.definitions, tool).Some?
    requires env.load(GetToolDefinitionPath(env.definitionsPath, env.definitions, tool).value)
               == Some(DefDoc(HeadingMap(Prompter.OnePromptHeading(p)), hasOtherKeys))
    requires p.key.Some? && p.text.Some? && p.dependsOn.None? && !p.isList && p.regex == ""
    requires |input| > 1 && input[0] != ""
    requires SaveAllowed(files, env.isDir, env.writable, AskText(defaultFilename, input[1]), input[2..])
    requires o.renderFile(Dirname(GetToolDefinitionPath(env.definitionsPath, env.definitions, tool).value), TemplateName(tool),
               Context(o, env, tool, map[p.key.value := Str(input[0])], AskText(defaultFilename, input[1]))).Some?
    ensures var r := RunConfigFlow(o, env, tool, defaultFilename, files, input);
      var out := AskText(defaultFilename, input[1]);
      var ctx := Context(o, env, tool, map[p.key.value := Str(input[0])], out);
      && r.outcome.Saved? && r.outcome.output == out && r.outcome.context == ctx
      && r.files == files[out := o.renderFile(Dirname(GetToolDefinitionPath(env.definitionsPath, env.definitions, tool).value),
                                              TemplateName(tool), ctx).value]
  {
    var heading := Prompter.OnePromptHeading(p);
    Prompter.OnePromptAnswered(o, p, GetToolDefaults(env.globalDoc, tool), input);
    var config := map[p.key.value := Str(input[0])];
    assert config != map[] by { assert p.key.value in config; }
    AnsweredRunDelivers(o, env, tool, defaultFilename, files, input, Prompter.State(config, input[1..]));
    assert input[1..][1..] == input[2..];
  }

  /** Once the prompts of a loaded definition give answers, the run is the delivery of those answers. */
  lemma AnsweredRunDelivers(o: Oracles, env: Env, tool: string, defaultFilename: string, files: Files, input: seq<string>,
                            st: Prompter.State)
    requires GetToolDefinitionPath(env.definitionsPath, env.definitions, tool).Some?
    requires env.load(GetToolDefinitionPath(env.definitionsPath, env.definitions, tool).value).Some?
    requires !env.load(GetToolDefinitionPath(env.definitionsPath, env.definitions, tool).value).value.heading.NullHeading?
    requires Collect(o, env, tool, HeadingOf(env.load(GetToolDefinitionPath(env.definitionsPath, env.definitions, tool).value).value),
               input) == Success(st)
    requires st.config != map[]
    ensures var defPath := GetToolDefinitionPath(env.definitionsPath, env.definitions, tool).value;
      RunConfigFlow(o, env, tool, defaultFilename, files, input)
        == Deliver(o, env, tool, defaultFilename, defPath, AfterOf(HeadingOf(env.load(defPath).value)), st.config, st.input, files)
  {
  }

  /** A `heading` entry that is null makes `heading.get("title", ...)` raise: the run ends there, nothing asked or written. */
  lemma NullHeadingCrashes(o: Oracles, env: Env, tool: string, defaultFilename: string, files: Files, input: seq<string>)
    requires GetToolDefinitionPath(env.definitionsPath, env.definitions, tool).Some?
    requires env.load(GetToolDefinitionPath(env.definitionsPath, env.definitions, tool).value).Some?
    requires env.load(GetToolDefinitionPath(env.definitionsPath, env.definitions, tool).value).value.heading.NullHeading?
    ensures RunConfigFlow(o, env, tool, defaultFilename, files, input) == Finish(Crashed(HeadingIsNull), files)
  {
  }

  /** Only a borgmatic run sees `encryption_arg` set by the wizard; for other tools the context is the answers plus the two added keys. */
  lemma OnlyBorgmaticGetsEncryptionArg(o: Oracles, env: Env, tool: string, config: Config, output: string)
    ensures Lower(tool) == Borgmatic ==>
      Context(o, env, tool, config, output)[EncryptionKey] == Str(EncryptionArg(o, Get(config, PassphraseKey)))
    ensures Lower(tool) != Borgmatic ==> Context(o, env, tool, config, output) == InjectContext(config, env.stamp, output)
  {
    assert Get(InjectContext(config, env.stamp, output), PassphraseKey) == Get(config, PassphraseKey);
  }
}

=== FILE: wrappers.dfy ===
/** Optional values and results with an error, shared by every module of the model. */
module Wrappers {

  datatype Option<+T> = None | Some(value: T) {

    /** The wrapped value, or `fallback` when there is none (Python's `x or fallback` on an absent entry). */
    function GetOr(fallback: T): T {
      match this
      case Some(v) => v
      case None => fallback
    }
  }

  /** The outcome of a step that may raise: `Failure` carries what was raised. */
  datatype Result<+R, +E> = Success(value: R) | Failure(error: E)
}
